=== FILE: README.md ===
# Shopping cart: row identity, quantity merging and totals

A Dafny model of the core of a session-backed PHP shopping cart. It covers two parts.

- **CartItem** is one cart line. It holds a product id, name, unit price, quantity, option array, tax rate and a saved-for-later flag. Its `rowId` is a digest of the id and the option array sorted by key, so the order of the options never decides which row a line occupies. The money values `rowTotal`, `subtotal`, `total`, `tax` and `taxTotal` are derived from price, quantity and tax rate, each rounded the way `number_format` rounds it.
- **Cart** keeps one map `rowId -> CartItem` per instance. The maps sit in the session under the key `"cart." + name`. Adding a line whose rowId is already present sums the quantities. An update can move a line to another rowId and merge it there. The cart reports count, subtotal, tax and total as sums over the lines. Store and restore copy the active content to and from a durable store keyed by (identifier, instance name).

Everything is modelled as immutable values and pure functions:

| file | module | models |
|---|---|---|
| `money.dfy` | `Money` | the rounding `number_format` applies, to 2 or 4 places |
| `strings.dfy` | `Strings` | the key order used by `ksort`; `str_replace(..., '', ...)`; the decimal text of an integer |
| `row_identity.dfy` | `RowIdentity` | option arrays, `ksort`, and the rowId digest |
| `results.dfy` | `Results` | `Option`, the exceptions, and `Result` |
| `cart_item.dfy` | `CartItem` | `src/CartItem.php` |
| `cart_rows.dfy` | `CartRows` | one instance's rows and the sums over them |
| `cart.dfy` | `ShoppingCart` | `src/Cart.php` |
| `as_written.dfy` | `AsWritten` | the four findings below, as the code is written |

Exceptions become `Failure(...)` values of `Result`. Money, quantities and tax rates are exact `real`s. The only rounding is the one the item's getters apply through `number_format`. The session is a `map<string, Rows>`, and the durable store is a `map<(identifier, instance), Rows>`. The configured default tax rate of 16 is the default value of a parameter. The predicate `Valid` says that every item sits under its own rowId. Each operation that writes the session or the store has a lemma showing it keeps `Valid`: add (single and bulk), update, remove, setTax, destroy, store and restore. This holds for the cart's own operations. A caller that changes a returned item in place can break it, as "## Left out" notes.

## Model

| member | source | states |
|---|---|---|
| Strings.StripAll | src/Cart.php:74 | `str_replace('cart.', '', ...)` never lengthens the key. With StripAllShortens: it shortens the key exactly when the key holds "cart.", and otherwise returns it unchanged. |
| Strings.StripAllShortens | src/Cart.php:74 | Removing every "cart." makes a key holding one strictly shorter and leaves any other key as it is. |
| Strings.PrefixThenStrip | src/Cart.php:58-75 | Stripping "cart." from "cart." + x gives x back exactly when x holds no "cart.". |
| RowIdentity.KSort | src/CartItem.php:357 | `ksort` keeps exactly the option pairs it was given, as a multiset. |
| RowIdentity.KSortSorted | src/CartItem.php:357 | `ksort`'s result is ordered by key. |
| RowIdentity.SortedArrangementUnique | src/CartItem.php:357 | Two key-sorted arrangements of the same option pairs are the same sequence, which is why `ksort` makes the digest order-independent. |
| CartItem.GenerateRowId | src/CartItem.php:355-360 | The rowId carries the id's text and the options sorted by key, as the same multiset of pairs. |
| CartItem.GenerateRowIdCanonical | src/CartItem.php:355-360 | Two rowIds are equal exactly when the ids have the same text and the option arrays hold the same pairs, in any order. |
| CartItem.RowIdIgnoresOptionOrder | src/CartItem.php:355-360 | Reordering one id's options never changes its rowId. |
| CartItem.New | src/CartItem.php:85-104 | An empty id (0, "" or "0") is rejected first, then an empty name ("" or "0"). Any price is accepted, negatives included. On success the item carries exactly the given id, name, price and options, and its rowId is the digest of that id and those options. |
| CartItem.SetQuantity | src/CartItem.php:190-197 | Only a zero quantity is rejected. Any other value, negatives included, is stored, and no other field changes. |
| CartItem.UpdateFromBuyable | src/CartItem.php:205-211 | Id, name and price come from the Buyable, and `rowTotal` is assigned. Options, quantity, tax rate and the rowId stay as they were, even when the id changed. |
| CartItem.UpdateFromArray | src/CartItem.php:219-229 | Each key present in the patch replaces its field and each absent key keeps the prior value. Nothing is validated, `rowTotal` is assigned, and the rowId is recomputed from the resulting id and options. |
| CartItem.UpdateFromArrayMovesRow | src/CartItem.php:219-229 | A patch gives a consistent item a new rowId exactly when it changes the id text or the set of options. |
| CartItem.SetTaxRate | src/CartItem.php:250-255 | Only the tax rate changes. |
| CartItem.SetSaved | src/CartItem.php:263-268 | Only the saved flag changes. |
| CartItem.FromArray | src/CartItem.php:327-332 | A missing id, name or price fails, reporting the first one missing. |
| CartItem.AlternateConstructorsAgree | src/CartItem.php:316-346 | fromArray, fromAttributes and fromBuyable build what the constructor builds from the same id, name, price and options. Options default to empty when they are not given. |
| Money.RoundTo | src/CartItem.php:282-300 | `number_format` rounding: the result has only the kept decimals, lies within half a unit of the last kept decimal of the input, and a value exactly halfway goes to the side farther from zero. |
| Money.RoundToUnique | src/CartItem.php:282-300 | Exactly one value is rounded from a given input in that sense, so the rounding contract determines the result. |
| Money.HalvesAwayFromZero | src/CartItem.php:282-300 | 0.125 rounds to 0.13 and -0.125 to -0.13 at 2 places, and 0.00005 rounds to 0.0001 at 4 places. |
| Money.RoundToExact | src/CartItem.php:282-300 | A value that already has only the kept decimals is unchanged by the rounding. |
| Money.RoundToIdempotent | src/CartItem.php:282-300 | Rounding a rounded value changes nothing. |
| Money.RoundToOdd | src/CartItem.php:282-300 | Rounding commutes with negation: a negative amount rounds to the negation of its magnitude's rounding. |
| CartItem.RowTotal | src/CartItem.php:278-284 | Once an update method has assigned the `rowTotal` property, it is the unrounded price. Until then, the getter gives the price rounded to 2 places. |
| CartItem.Subtotal | src/CartItem.php:286-288 | A line's subtotal is qty × price rounded to 2 places. |
| CartItem.Total | src/CartItem.php:290-292 | A line's total is qty × rowTotal rounded to 2 places, so it uses the already-rounded rowTotal. |
| CartItem.Tax | src/CartItem.php:294-296 | The tax on one unit is price × rate/100 rounded to 4 places. |
| CartItem.TaxTotal | src/CartItem.php:298-300 | A line's tax total is the 4-place unit tax × qty, rounded again to 2 places. |
| CartItem.RowTotalIsPrice | src/CartItem.php:282-284 | `rowTotal` equals the price exactly when the price is whole cents or an update method has assigned the property. |
| CartItem.DerivedValues | src/CartItem.php:286-300 | When `rowTotal` equals the price, a line's total is its subtotal. A zero tax rate gives zero tax and zero tax total. |
| CartItem.TotalRoundsUnitPrice | src/CartItem.php:282-292 | Two units at 0.125 have rowTotal 0.13, subtotal 0.25 and total 0.26, because the unit price is rounded before it is multiplied. |
| CartItem.DerivedValuesFrame | src/CartItem.php:205-211 | setSaved and setTaxRate leave the values they do not feed unchanged. Re-reading the same price from a Buyable keeps subtotal and tax total, and it changes rowTotal exactly when the price has more than 2 decimals and rowTotal was not yet assigned. |
| CartRows.TotalSplits | src/Cart.php:240-249 | The cart total is Σ qty·rowTotal + Σ qty·tax over the rounded per-line values. |
| CartRows.TotalIsSubtotalPlusTax | src/Cart.php:240-287 | When every line's rowTotal is its price, the cart total is the subtotal plus the tax. |
| CartRows.TotalDiffersFromSubtotalPlusTax | src/Cart.php:240-287 | Otherwise they can differ. One tax-free line of 2 units at 0.125 has total 0.26, but subtotal plus tax 0.25. |
| CartRows.Reduce | src/Cart.php:244-246 | Folding a line measure over the rows in any order gives the order-free sum. |
| ShoppingCart.SetInstance | src/Cart.php:58-65 | The active session key becomes "cart." + name, with "default" when no name is given. Session and store are untouched. |
| ShoppingCart.CurrentInstance | src/Cart.php:72-75 | The current instance is shorter than the key exactly when the key holds "cart.". A key without "cart." is its own current instance. |
| ShoppingCart.InstanceRoundTrip | src/Cart.php:58-75 | `currentInstance(instance(x)) == x` holds exactly when x contains no "cart.". |
| ShoppingCart.Init | src/Cart.php:43-50 | A new cart keeps the shared session as it is and selects "default". Its content is whatever the session already holds under "cart.default". It is Valid exactly when the session and the store are. |
| ShoppingCart.Content | src/Cart.php:213-220 | `content()` (line 213) and `getContent()` (line 448) read the same thing: an instance with no slot yet is an empty collection, and otherwise the slot's rows exactly. |
| ShoppingCart.ContentPutRoundTrip | src/Cart.php:448-453 | `getContent()` and `content()` read back what the last write put in the active slot. An absent slot reads as empty, and writing back what was read changes nothing. |
| ShoppingCart.CreateCartItem | src/Cart.php:466-487 | The built item has the requested fields and a non-zero quantity. Its tax rate is the given one, or else the configured default. It fails exactly when the constructor or setQuantity would, or when an attribute array lacks id, name, price or qty. A built array without qty fails on qty. |
| ShoppingCart.Add | src/Cart.php:96-115 | The line is stored under its rowId. If that rowId was present, the stored quantity is the new quantity plus the existing one, and the row count stays the same. Every other row and every other session slot are unchanged. |
| ShoppingCart.AddCount | src/Cart.php:102-108 | Adding a line raises count by exactly its quantity, whether it merged or opened a new row. |
| ShoppingCart.AddPreservesValid | src/Cart.php:102-112 | After add, every item still sits under its own rowId. |
| ShoppingCart.LooksMulti | src/Cart.php:495-502 | `isMulti` on one attribute array: its first value is an array exactly when "options" is present and listed first, since that is the only array-valued attribute. |
| ShoppingCart.IsMulti | src/Cart.php:495-502 | `isMulti` is false for a scalar id. A list of attribute arrays is multi exactly when it has a first entry. One attribute array is multi exactly when its options come first. |
| ShoppingCart.AddArray | src/Cart.php:96-115 | Adding one attribute array that `isMulti` does not take for a list is the single add of those attributes. One it does take for a list fails, naming the first of id, name and price its option array lacks. |
| ShoppingCart.AddArgument | src/Cart.php:88-115 | `add` dispatches as `isMulti` decides. A scalar id, and one attribute array that is not multi, are exactly the single add of those arguments. A non-empty list is exactly the bulk add of its entries, with one result per entry. The empty list fails on the missing id. A failed single add changes nothing, and no add touches another slot. |
| ShoppingCart.OptionsFirstRefused | src/Cart.php:495-502 | An attribute array whose first key is "options" is taken for a list and always fails. The same array with another key first succeeds exactly when the single add does. |
| ShoppingCart.AddArgumentPreservesValid | src/Cart.php:88-115 | Every form of add keeps every item under its own rowId. |
| ShoppingCart.AddMany | src/Cart.php:90-94 | A bulk add fails with the first entry's error and no change when that entry fails. On success it returns one line per entry, and the first is the line that entry's add stored. Every row present before stays present, every returned line's rowId is in the cart, and other slots are untouched. |
| ShoppingCart.AddManyCount | src/Cart.php:90-94 | A successful bulk add raises count by the total requested quantity. |
| ShoppingCart.AddManyPreservesValid | src/Cart.php:90-94 | A bulk add keeps every item under its own rowId, whether it succeeds or stops at a failing entry. |
| ShoppingCart.Get | src/Cart.php:187-196 | Returns the stored line when the rowId is present. Otherwise it fails with InvalidRowId for that rowId. |
| ShoppingCart.Remove | src/Cart.php:168-179 | An absent rowId fails and nothing changes. A present one is deleted, every other row stays, and so does every other slot. |
| ShoppingCart.RemoveCount | src/Cart.php:168-179 | Removing a line lowers count by its quantity and leaves every other line as it was. |
| ShoppingCart.RemovePreservesValid | src/Cart.php:168-179 | After remove, every item still sits under its own rowId. |
| ShoppingCart.Apply | src/Cart.php:126-134 | The change `update` makes to the line: a bare quantity replaces only qty, a Buyable gives exactly what `updateFromBuyable` makes of the line, and a patch gives exactly what `updateFromArray` makes of it. Only a patch can move the line to another rowId, which it then recomputes from the new id and options. |
| ShoppingCart.Update | src/Cart.php:124-160 | An absent rowId fails and nothing changes. When the rowId stays, a positive quantity stores exactly the changed line and returns it, and a quantity ≤ 0 removes the row. A stored line always ends with a positive quantity under its own rowId. The only key that can appear is the returned line's rowId, and other slots are untouched. |
| ShoppingCart.UpdateNonPositiveRemoves | src/Cart.php:124-150 | A bare quantity ≤ 0 removes the row, so a later get on that rowId fails. |
| ShoppingCart.UpdatePositiveQty | src/Cart.php:132-157 | A bare positive quantity replaces the row's quantity and nothing else. |
| ShoppingCart.UpdateRekeys | src/Cart.php:138-153 | When the update changes the rowId, the old key is gone on every path. Landing on an existing row stores the summed line there. A negative sum removes that row too, and a zero sum fails. Landing on a free rowId stores the line when its quantity is positive and fails with InvalidRowId otherwise. In each case the content is stated exactly, so no other row changes. |
| ShoppingCart.UpdatePreservesValid | src/Cart.php:124-160 | After update, on every path, every item still sits under its own rowId. |
| ShoppingCart.Destroy | src/Cart.php:203-220 | After destroy, content() is the empty map. Only the active slot is dropped. |
| ShoppingCart.DestroyEmpties | src/Cart.php:203-230 | After destroy, count is 0, and a valid cart stays valid. |
| ShoppingCart.SetTax | src/Cart.php:331-342 | An absent rowId fails. Otherwise only that line's tax rate changes. |
| ShoppingCart.SetTaxKeepsCountAndSubtotal | src/Cart.php:331-342 | A tax-rate change leaves count and subtotal as they were. |
| ShoppingCart.SetTaxPreservesValid | src/Cart.php:331-342 | After setTax, every item still sits under its own rowId. |
| ShoppingCart.SearchCart | src/Cart.php:295-298 | Returns exactly the rows the predicate accepts, unchanged and under their keys. |
| ShoppingCart.Count | src/Cart.php:227-230 | count is the sum of the quantities. |
| ShoppingCart.CartSubtotal | src/Cart.php:278-287 | subtotal is Σ qty·price, with the unrounded price. |
| ShoppingCart.TaxSum | src/Cart.php:259-268 | tax is Σ qty·tax, with the per-unit tax rounded to 4 places. |
| ShoppingCart.CartTotal | src/Cart.php:240-249 | total is Σ qty·rowTotal + Σ qty·tax. It equals subtotal + tax when every line's rowTotal is its price. |
| ShoppingCart.Store | src/Cart.php:352-370 | The record for (identifier, current instance) becomes the active content. Other records and the session are untouched. |
| ShoppingCart.StorePreservesValid | src/Cart.php:352-370 | Stored contents keep every item under its own rowId. |
| ShoppingCart.Restore | src/Cart.php:378-406 | With no matching record nothing changes. Otherwise the slot "cart." + current name becomes its prior rows overwritten by the stored rows, and that slot is the active one afterwards. |
| ShoppingCart.RestoreMerges | src/Cart.php:391-405 | For an instance name without "cart.", the active instance is the same afterwards. Stored lines replace same-rowId lines and all other lines stay. |
| ShoppingCart.RestoreLeavesPrefixedInstance | src/Cart.php:391-405 | For a name x that itself holds "cart.", restore ends on "cart." + x with every "cart." removed. That is a different instance from the one it started on. |
| ShoppingCart.RestorePreservesValid | src/Cart.php:378-406 | After restore, every item still sits under its own rowId. |
| ShoppingCart.StoreDestroyRestore | src/Cart.php:352-406 | Store, then destroy, then restore gives the same lines back on the same instance. |
| AsWritten.NewAsWritten | src/CartItem.php:85-104 | As written, only string ids can succeed. |
| AsWritten.IntegerIdRefusedAsWritten | src/CartItem.php:103 | Every valid integer id is refused as written, while the intended constructor accepts it. |
| AsWritten.IntegerIdHashedAsText | src/CartItem.php:355-360 | As intended, an integer id is hashed through its decimal text and shares a row with the string of the same digits. |
| AsWritten.PersistAsWritten | src/Cart.php:352-387 | As written, store and restore always fail on a call on null. |
| AsWritten.StoreAndRestoreFailAsWritten | src/Cart.php:356 | As written, nothing is stored or restored. The intended store records the content and gets it back. |
| AsWritten.UpdateAsWritten | src/Cart.php:124 | As written, a patch or a Buyable is refused before the body runs. |
| AsWritten.PatchRefusedAsWritten | src/Cart.php:124-145 | A patch that changes a line's id is refused as written, while the intended update moves the line off its old rowId. |
| AsWritten.AddAsWritten | src/Cart.php:90 | As written, every add with a scalar id fails with a type error before anything changes. |
| AsWritten.ScalarAddRefusedAsWritten | src/Cart.php:88-95 | Every valid scalar add is refused as written, while the intended add stores the line under its rowId. |

## Findings

| source | as written | input that shows it | evidently intended | confidence | as-written member | corrected member |
|---|---|---|---|---|---|---|
| src/CartItem.php:103 | The file declares strict typing, and `generateRowId(string $id, ...)` is called with the int-or-string id, so an integer id raises a TypeError after validation. `updateFromArray` at line 228 makes the same call. | `new CartItem(5, 'Shirt', 10.0)` | Integer ids are accepted and concatenated into the digest as their decimal text. | high, not executed | AsWritten.NewAsWritten | CartItem.New |
| src/Cart.php:356 | store and restore use `$this->model`, but the property is `$cart_model`. The class's `__get` answers null for `model`, so `->where(...)` is called on null. | any `store('u1')` or `restore('u1')` | Use the declared model, i.e. a durable store keyed by (identifier, instance). | high, not executed | AsWritten.PersistAsWritten | ShoppingCart.Store |
| src/Cart.php:124 | `update(string $rowId, int or float $qty)` refuses arrays and Buyables with a TypeError, so the `updateFromBuyable` and `updateFromArray` branches and the re-keying merge are unreachable. | `update($rowId, ['id' => 'sku2'])` | The second argument is a quantity, an attribute patch or a Buyable. | high, not executed | AsWritten.UpdateAsWritten | ShoppingCart.Update |
| src/Cart.php:90 | The file declares strict typing, and `add` passes its `int|string|array` first argument to `isMulti(array|object $item)`. A scalar id therefore raises a TypeError before anything is added. | `add('sku1', 'Shirt', 1, 10.0)` | A scalar id is one line. The `! is_array($item)` test at line 497 exists to answer false for it. | high, not executed | AsWritten.AddAsWritten | ShoppingCart.AddArgument |

`AsWritten.IntegerIdRefusedAsWritten`, `AsWritten.StoreAndRestoreFailAsWritten`, `AsWritten.PatchRefusedAsWritten` and `AsWritten.ScalarAddRefusedAsWritten` exhibit the rows above. `AsWritten.IntegerIdHashedAsText`, `ShoppingCart.StoreDestroyRestore`, `ShoppingCart.UpdateRekeys` and `ShoppingCart.AddArgument` prove the intended behaviour. The rest of the model uses the corrected members.

## Quirks of the code kept in the model

- The price is never validated. The check at src/CartItem.php:95 cannot fail for a float, so negative prices are accepted.
- `setQuantity` rejects only zero, so negative quantities pass.
- `update` with a bare quantity assigns it directly, without `setQuantity`.
- `updateFromBuyable` does not recompute the rowId.
- `restore` overwrites same-rowId lines rather than summing them.
- An item's `rowTotal` and `tax` go through `number_format` before the cart sums them. `rowTotal` is rounded to 2 places and `tax` to 4 (src/CartItem.php:282-300), and `total()` multiplies these rounded values by the quantity (src/Cart.php:245). So the total can differ from subtotal plus tax: two units at 0.125 give subtotal 0.25 and total 0.26.
- `updateFromBuyable` and `updateFromArray` assign the unrounded price to an undeclared `rowTotal` property, which from then on shadows the rounded getter for that item.
- `isMulti` looks only at the first value of the array. An attribute array whose first key is "options" is taken for a list of items, and its entries fail as items. `add([])` is a single add that fails for the missing id.

## Modelling decisions

- **Row digest.** `md5($id . serialize($options))` after `ksort` is modelled as the datatype value `RowKey(id text, sorted options)`. That value is a digest with no collisions. So "same rowId" means "same id text and same option set", and the model assumes the digest never collides.
- **Option arrays.** An option array is a sequence of string (key, value) pairs with distinct keys. `ksort` is an insertion sort by key in lexicographic character order.
- **Shared session collection.** The session hands back the live collection object, and `get` hands back the live item. So in `update`, the old row pulled at src/Cart.php:139 stays pulled even when a later step throws. Two steps can throw: `setQuantity` on a zero sum at line 143, and `remove` of a rowId that has no row at line 148. `Update` returns the cart as it stands together with the result.
- **Bulk add.** Earlier lines stay added when a later one fails, and `AddMany` returns the cart as it stands. `AddArgument` calls `AddMany` only for a non-empty list.
- **Restore keys.** Restore puts each stored item under its stored key. Contents always keep items under their own rowId (`Valid`), so this is the same as putting each under `$cartItem->rowId`.
- **Store records.** Delete-then-insert on (identifier, instance) is one map update, so there is at most one record per key.
- **Unset quantity.** A freshly built item has quantity 0.0, standing for the uninitialised property. Every path into the cart sets the quantity first.
- **rowTotal.** `Item.rowTotalAssigned` records whether an update method has created the dynamic `rowTotal` property. When it is set, `RowTotal` is the price. Otherwise it is the price rounded to 2 places, which is what the magic getter returns. Every update method assigns the price to the property, so the property's value is always the current price.
- **Missing attributes.** PHP raises no exception of its own for a missing attribute. A missing `id`, `name` or `price` (src/CartItem.php:331) or `qty` (src/Cart.php:474) reads as null, and the typed parameter it is passed to raises a TypeError that names the first null argument. `MissingAttribute(key)` stands for that TypeError, with the key it names.
- **Typed inputs.** The runtime type inspection in `add` and `update` (`isMulti`, `is_array`, `instanceof`) becomes explicit variants: `AddArg`, `ItemSource` and `UpdateArg`. A PHP array that `isMulti` inspects is an `AttrArray`, whose `optionsFirst` flag records whether "options" is its first key. That key is the only one whose value is itself an array.

## Left out

- md5 and serialize: abstracted as the collision-free digest described above. The concatenation `$id . serialize($options)` is itself not one-to-one. For example, id `sku` with options `['k' => 'Qa:1:{s:1:"k";s:1:"v']` and id `skua:1:{s:1:"k";s:20:"Q` with options `['k' => 'v']` give the same md5 input. So two different lines can share a rowId even without an md5 collision. The "same rowId only if same id text and options" direction of `CartItem.GenerateRowIdCanonical` rests on this assumption.
- PHP's `ksort` comparison of numeric-string and integer keys: keys are strings ordered by character code. Order-independence holds for any total order.
- `numberFormat` applied to the cart's sums: their final rounding and rendering, with decimal places, point and separator from configuration. This is string formatting. The rounding of the per-line `rowTotal` and `tax` is modelled, because the sums are built from it.
- Float error: quantities and money are exact reals, so the model's rounding sees exact decimal values.
- Items returned by `add`, `get` and `update` are the live objects stored in the session. The model returns copies. A caller that changes a returned item in place, for example with `updateFromArray`, changes the stored line without moving it to its new rowId, which can break `Valid`. The lemmas about `Valid` cover only the cart's own operations.
- Cart's magic `__get` for total, tax and subtotal: it returns the formatted string where `?float` is declared. The model has the three sums as `CartTotal`, `TaxSum` and `CartSubtotal`.
- Events::trigger, the session service, `Time::now()` timestamps, the CartModel ORM table and `serialize`/`unserialize` of stored content. These are side effects and framework calls.
- `associate` (both the Cart and CartItem versions), `class_exists`, the `model` lookup in `__get`, `toArray` and `toJson`. These are reflection, foreign calls and rendering.
- `deleteStoredCart`: it is protected and nothing calls it.
- `add` given a CartItem or a Buyable: `add` declares its first parameter `int|string|array`, so these branches cannot be reached.
- A bulk add of Buyables, `add([$b])`: `isMulti` answers true through `instanceof Buyable` (src/Cart.php:501), and the inner `$this->add($b)` then raises a TypeError against `int|string|array`. So every bulk add of Buyables fails with a TypeError. This is not modelled. `fromBuyable` is modelled on its own as `CartItem.FromBuyable`.
- A Buyable is the id, description and price it reports for the item's current options. The calls into it are not modelled.
- A null name, quantity or price in a scalar `add`: the typed parameters of `fromAttributes` and `setQuantity` raise a TypeError. The model takes these arguments as required.
- `search` with an arbitrary closure: modelled only for a pure predicate over the item.
- PHP integer width: quantities are unbounded.

=== FILE: as_written.dfy ===
/** Four places where the code as written cannot do what it evidently means
    to. Each is modelled as written, with a lemma showing the input that
    exposes it; the rest of the model uses the intended behaviour. */
module AsWritten {
  import opened Strings
  import opened RowIdentity
  import opened Results
  import opened CartItem
  import opened CartRows
  import opened ShoppingCart

  /** The constructor as written: under strict typing, handing an integer id
      to `generateRowId(string $id, ...)` raises a TypeError once the
      validations have passed. */
  function NewAsWritten(id: Id, name: string, price: real, options: Options): (r: Result<Item>)
    ensures r.Success? ==> id.StrId?
  {
    if IsEmptyId(id) then Failure(InvalidIdentifier)
    else if IsEmptyText(name) then Failure(InvalidName)
    else if id.IntId? then Failure(TypeMismatch)
    else New(id, name, price, options)
  }

  /** Every non-zero integer id with a valid name is refused as written,
      while the intended constructor accepts it. */
  lemma IntegerIdRefusedAsWritten(n: int, name: string, price: real, options: Options)
    requires n != 0 && !IsEmptyText(name)
    ensures NewAsWritten(IntId(n), name, price, options) == Failure(TypeMismatch)
    ensures New(IntId(n), name, price, options).Success?
  {
  }

  /** As intended, an integer id is accepted and hashed through its decimal
      text, so it shares a row with the string of the same digits. */
  lemma IntegerIdHashedAsText(n: int, name: string, price: real, options: Options)
    requires n != 0 && !IsEmptyText(name)
    ensures New(IntId(n), name, price, options).Success?
    ensures New(IntId(n), name, price, options).value.rowId
            == GenerateRowId(StrId(IntText(n)), options)
    ensures GenerateRowId(IntId(n), options) == GenerateRowId(StrId(IntText(n)), options)
  {
    GenerateRowIdCanonical(IntId(n), options, StrId(IntText(n)), options);
  }

  /** Which of the two persistence operations is called. */
  datatype Persistence = StoreCall | RestoreCall

  /** `store` and `restore` as written: both reach `$this->model`, which is not
      the declared `$cart_model`; the cart's magic getter answers null for it,
      and calling a method on null is an Error before anything is read or
      written (in `restore`, already in the existence check). */
  function PersistAsWritten(c: Cart, identifier: string, op: Persistence): (r: Result<Cart>)
    ensures r == Failure(CallOnNull)
  {
    Failure(CallOnNull)
  }

  /** As written nothing is ever stored or restored; the intended store
      records the active content, and restoring it into an emptied instance
      gives the content back. */
  lemma StoreAndRestoreFailAsWritten(c: Cart, identifier: string, x: string)
    requires c.instance == KeyPrefix + x && !Contains(x, KeyPrefix)
    ensures PersistAsWritten(c, identifier, StoreCall).Failure?
    ensures PersistAsWritten(c, identifier, RestoreCall).Failure?
    ensures CurrentInstance(c) == x
    ensures Store(c, identifier).db[(identifier, x)] == Content(c)
    ensures Content(Restore(Destroy(Store(c, identifier)), identifier)) == Content(c)
  {
    InstanceRoundTrip(c, x);
    assert SetInstance(c, Some(x)) == c;
    StoreDestroyRestore(c, identifier, x);
  }

  /** `update` as written: its second parameter is declared `int|float`, so an
      attribute array or a Buyable is a TypeError before the body runs, and
      the re-keying code is never reached. */
  function UpdateAsWritten(c: Cart, rowId: RowId, arg: UpdateArg): (r: Updated)
    ensures !arg.NewQty? ==> r == Updated(c, Failure(TypeMismatch))
  {
    if arg.NewQty? then Update(c, rowId, arg) else Updated(c, Failure(TypeMismatch))
  }

  /** A patch that changes the id of a stored line is refused as written, while
      the intended update moves the line to its new rowId. */
  lemma PatchRefusedAsWritten(c: Cart, rowId: RowId, newId: Id)
    requires WellKeyed(Content(c)) && rowId in Content(c)
    requires IdText(newId) != IdText(Content(c)[rowId].id)
    requires Consistent(Content(c)[rowId])
    ensures UpdateAsWritten(c, rowId, Patch(Attributes(Some(newId), None, None, None, None))).result
            == Failure(TypeMismatch)
    ensures rowId !in Content(Update(c, rowId, Patch(Attributes(Some(newId), None, None, None, None))).cart)
  {
    var a := Attributes(Some(newId), None, None, None, None);
    UpdateFromArrayMovesRow(Content(c)[rowId], a);
    UpdateRekeys(c, rowId, Patch(a));
  }

  /** `add` as written: it first hands its argument to
      `isMulti(array|object $item)`, and a scalar id is neither an array nor
      an object, so every call with a scalar id raises a TypeError before
      anything changes. */
  function AddAsWritten(c: Cart, arg: AddArg, taxRate: Option<real>, configTaxRate: real): (r: Bulk)
    ensures arg.ScalarArgs? ==> r == Bulk(c, Failure(TypeMismatch))
    ensures !arg.ScalarArgs? ==> r == AddArgument(c, arg, taxRate, configTaxRate)
  {
    if arg.ScalarArgs? then Bulk(c, Failure(TypeMismatch))
    else AddArgument(c, arg, taxRate, configTaxRate)
  }

  /** Every valid scalar add is refused as written, while the intended add
      stores the line under its rowId. */
  lemma ScalarAddRefusedAsWritten(c: Cart, id: Id, name: string, qty: real, price: real,
                                  options: Options, taxRate: Option<real>, configTaxRate: real)
    requires !IsEmptyId(id) && !IsEmptyText(name) && qty != 0.0
    ensures AddAsWritten(c, ScalarArgs(id, name, qty, price, options), taxRate, configTaxRate).result
            == Failure(TypeMismatch)
    ensures AddArgument(c, ScalarArgs(id, name, qty, price, options), taxRate, configTaxRate).result.Success?
    ensures GenerateRowId(id, options)
            in Content(AddArgument(c, ScalarArgs(id, name, qty, price, options), taxRate, configTaxRate).cart)
  {
    var src := Scalar(id, name, qty, price, options);
    assert CreateCartItem(src, taxRate, configTaxRate).Success?;
    assert CreateCartItem(src, taxRate, configTaxRate).value.rowId == GenerateRowId(id, options);
  }
}

=== FILE: cart.dfy ===
/** The cart: per-instance contents held in the session under "cart." + name,
    the operations on the active instance, and store/restore against a
    durable map keyed by (identifier, instance name). */
module ShoppingCart {
  import opened Strings
  import opened RowIdentity
  import opened Results
  import opened CartItem
  import opened CartRows

  const KeyPrefix: string := "cart."
  const DefaultInstance: string := "default"
  /** The configured default tax rate. */
  const DefaultTaxRate: real := 16.0

  /** Durable records are keyed by (identifier, instance name). */
  type StoreKey = (string, string)

  /** `session` maps session keys to contents, `instance` is the active
      session key, `db` holds the stored carts. */
  datatype Cart = Cart(session: map<string, Rows>, instance: string, db: map<StoreKey, Rows>)

  /** Every content the cart holds keeps each item under its own rowId. */
  ghost predicate Valid(c: Cart)
  {
    && (forall k | k in c.session :: WellKeyed(c.session[k]))
    && (forall k | k in c.db :: WellKeyed(c.db[k]))
  }

  /** `r` differs from `c` at most in the active instance's session slot. */
  ghost predicate SameElsewhere(c: Cart, r: Cart)
  {
    r.instance == c.instance && r.db == c.db
    && r.session - {c.instance} == c.session - {c.instance}
  }

  /** `instance()`: selects the session slot "cart." + name, "default" when no
      name is given. */
  function SetInstance(c: Cart, name: Option<string>): (r: Cart)
    ensures r.instance == KeyPrefix + name.GetOr(DefaultInstance)
    ensures r.session == c.session && r.db == c.db
  {
    c.(instance := KeyPrefix + name.GetOr(DefaultInstance))
  }

  /** `currentInstance()`: the active key with every "cart." removed. It is
      shorter than the key exactly when the key holds a "cart.", and the key
      itself otherwise. */
  function CurrentInstance(c: Cart): (r: string)
    ensures |r| < |c.instance| <==> Contains(c.instance, KeyPrefix)
    ensures !Contains(c.instance, KeyPrefix) ==> r == c.instance
  {
    StripAllShortens(c.instance, KeyPrefix);
    StripAll(c.instance, KeyPrefix)
  }

  /** Selecting an instance and asking for the current one gives the name
      back exactly when the name holds no "cart.". */
  lemma InstanceRoundTrip(c: Cart, x: string)
    ensures CurrentInstance(SetInstance(c, Some(x))) == x <==> !Contains(x, KeyPrefix)
  {
    PrefixThenStrip(KeyPrefix, x);
  }

  /** The constructor: the shared session as it stands, a durable store, and
      the "default" instance, whose lines are whatever the session already
      holds under "cart.default". */
  function Init(session: map<string, Rows>, db: map<StoreKey, Rows>): (r: Cart)
    ensures CurrentInstance(r) == DefaultInstance
    ensures r.session == session && r.db == db
    ensures Content(r) == if KeyPrefix + DefaultInstance in session then session[KeyPrefix + DefaultInstance] else map[]
    ensures Valid(r) <==>
      (forall k | k in session :: WellKeyed(session[k])) && (forall k | k in db :: WellKeyed(db[k]))
  {
    var r := SetInstance(Cart(session, KeyPrefix, db), None);
    assert !Contains(DefaultInstance, KeyPrefix) by {
      forall i | 0 <= i <= |DefaultInstance|
        ensures !OccursAt(DefaultInstance, KeyPrefix, i)
      {
        if i + |KeyPrefix| <= |DefaultInstance| {
          assert DefaultInstance[i] != KeyPrefix[0];
        }
      }
    }
    InstanceRoundTrip(Cart(session, KeyPrefix, db), DefaultInstance);
    r
  }

  /** `content()` / `getContent()`: the active slot, empty when absent. */
  function Content(c: Cart): (r: Rows)
    ensures c.instance !in c.session ==> r == map[]
    ensures c.instance in c.session ==> r == c.session[c.instance]
  {
    if c.instance in c.session then c.session[c.instance] else map[]
  }

  /** Writes the active slot. */
  function Put(c: Cart, content: Rows): (r: Cart)
    ensures Content(r) == content && SameElsewhere(c, r)
  {
    c.(session := c.session[c.instance := content])
  }

  /** `content()` reads back what the last write put in the active slot, and
      writing back what it reads changes nothing once the slot exists. */
  lemma ContentPutRoundTrip(c: Cart, x: Rows)
    ensures Content(Put(c, x)) == x
    ensures c.instance in c.session ==> Put(c, Content(c)) == c
    ensures c.instance !in c.session ==> Content(c) == map[]
  {
  }

  lemma PutValid(c: Cart, content: Rows)
    requires Valid(c) && WellKeyed(content)
    ensures Valid(Put(c, content))
  {
  }

  // ---------------------------------------------------------------- items

  /** How `add` describes a new line: scalar arguments, or one attribute
      array. */
  datatype ItemSource =
    | Scalar(id: Id, name: string, qty: real, price: real, options: Options)
    | Array(attrs: Attributes)

  /** `createCartItem`: build the item, set its quantity, then its tax rate
      (the given one, else the configured default). */
  function CreateCartItem(src: ItemSource, taxRate: Option<real>, configTaxRate: real): (r: Result<Item>)
    ensures r.Success? ==> Consistent(r.value) && r.value.qty != 0.0 && !r.value.isSaved
    ensures r.Success? ==> r.value.taxRate == (if taxRate.Some? then taxRate.value else configTaxRate)
    ensures src.Scalar? ==>
      (r.Success? <==> !IsEmptyId(src.id) && !IsEmptyText(src.name) && src.qty != 0.0)
    ensures src.Scalar? && r.Success? ==>
      && r.value.id == src.id && r.value.name == src.name && r.value.price == src.price
      && r.value.qty == src.qty && r.value.options == src.options
    ensures src.Array? && r.Success? ==>
      && src.attrs.id == Some(r.value.id) && src.attrs.name == Some(r.value.name)
      && src.attrs.price == Some(r.value.price) && src.attrs.qty == Some(r.value.qty)
      && r.value.options == src.attrs.options.GetOr([])
    ensures src.Array? ==>
      (r.Success? <==>
        && src.attrs.id.Some? && src.attrs.name.Some? && src.attrs.price.Some? && src.attrs.qty.Some?
        && !IsEmptyId(src.attrs.id.value) && !IsEmptyText(src.attrs.name.value)
        && src.attrs.qty.value != 0.0)
    ensures src.Array? && FromArray(src.attrs).Success? && src.attrs.qty.None? ==>
      r == Failure(MissingAttribute("qty"))
  {
    var item :- match src
      case Scalar(id, name, _, price, options) => FromAttributes(id, name, price, options)
      case Array(a) => FromArray(a);
    var qty :- match src
      case Scalar(_, _, q, _, _) => Success(q)
      case Array(a) => if a.qty.Some? then Success(a.qty.value) else Failure(MissingAttribute("qty"));
    var counted :- SetQuantity(item, qty);
    Success(SetTaxRate(counted, taxRate.GetOr(configTaxRate)))
  }

  /** `add` of one line: an existing row with the same rowId absorbs the new
      quantity, so the cart gains at most one row; the stored line is
      returned. */
  function Add(c: Cart, src: ItemSource, taxRate: Option<real> := None,
               configTaxRate: real := DefaultTaxRate): (r: Result<(Cart, Item)>)
    ensures r.Failure? <==> CreateCartItem(src, taxRate, configTaxRate).Failure?
    ensures r.Failure? ==> r.error == CreateCartItem(src, taxRate, configTaxRate).error
    ensures r.Success? ==>
      var created := CreateCartItem(src, taxRate, configTaxRate).value;
      var before := Content(c);
      var after := Content(r.value.0);
      var stored := r.value.1;
      && stored.rowId == created.rowId
      && stored.qty == created.qty + (if created.rowId in before then before[created.rowId].qty else 0.0)
      && stored.(qty := created.qty) == created
      && created.rowId in after && after[created.rowId] == stored
      && (forall k | k != created.rowId :: (k in after <==> k in before))
      && (forall k | k in before && k != created.rowId :: after[k] == before[k])
      && |after| == |before| + (if created.rowId in before then 0 else 1)
      && SameElsewhere(c, r.value.0)
  {
    var created :- CreateCartItem(src, taxRate, configTaxRate);
    var before := Content(c);
    var stored :=
      if created.rowId in before then created.(qty := created.qty + before[created.rowId].qty)
      else created;
    Success((Put(c, before[created.rowId := stored]), stored))
  }

  /** Adding a line raises the cart's count by exactly the line's quantity,
      whether it merged into an existing row or opened a new one. */
  lemma AddCount(c: Cart, src: ItemSource, taxRate: Option<real>, configTaxRate: real)
    requires Add(c, src, taxRate, configTaxRate).Success?
    ensures SumOf(Content(Add(c, src, taxRate, configTaxRate).value.0), Quantity)
            == SumOf(Content(c), Quantity) + CreateCartItem(src, taxRate, configTaxRate).value.qty
  {
    var created := CreateCartItem(src, taxRate, configTaxRate).value;
    var r := Add(c, src, taxRate, configTaxRate).value;
    SumOfPut(Content(c), Quantity, created.rowId, r.1);
  }

  lemma AddPreservesValid(c: Cart, src: ItemSource, taxRate: Option<real>, configTaxRate: real)
    requires Valid(c) && Add(c, src, taxRate, configTaxRate).Success?
    ensures Valid(Add(c, src, taxRate, configTaxRate).value.0)
  {
    var created := CreateCartItem(src, taxRate, configTaxRate).value;
    var r := Add(c, src, taxRate, configTaxRate).value;
    var before := Content(c);
    assert WellKeyed(before);
    PutValid(c, before[created.rowId := r.1]);
  }

  /** An attribute array as `add` is handed it. The order of its keys
      matters in one place: `isMulti` looks at its first value, and the only
      key whose value is itself an array is "options". */
  datatype AttrArray = AttrArray(attrs: Attributes, optionsFirst: bool)

  /** `isMulti` on one attribute array: its first value is the option array. */
  predicate LooksMulti(a: AttrArray): (r: bool)
    ensures r ==> a.attrs.options.Some?
    ensures a.attrs.options.Some? ==> (r <==> a.optionsFirst)
  {
    a.optionsFirst && a.attrs.options.Some?
  }

  predicate HasKey(o: Options, key: string)
  {
    exists i | 0 <= i < |o| :: o[i].0 == key
  }

  /** What adding an option array as if it were a line raises: the first of
      "id", "name" and "price" it lacks, else a type error, because every
      option value is text and the price must be a float. */
  function OptionArrayError(o: Options): CartError
  {
    if !HasKey(o, "id") then MissingAttribute("id")
    else if !HasKey(o, "name") then MissingAttribute("name")
    else if !HasKey(o, "price") then MissingAttribute("price")
    else TypeMismatch
  }

  /** `add` of one attribute array. An array whose first value is the option
      array is taken for a list of lines; its first entry, the option array,
      is then added as a line and fails before anything changes. */
  function AddArray(c: Cart, a: AttrArray, taxRate: Option<real>, configTaxRate: real): (r: Result<(Cart, Item)>)
    ensures LooksMulti(a) ==> r == Failure(OptionArrayError(a.attrs.options.value))
    ensures !LooksMulti(a) ==> r == Add(c, Array(a.attrs), taxRate, configTaxRate)
  {
    if LooksMulti(a) then Failure(OptionArrayError(a.attrs.options.value))
    else Add(c, Array(a.attrs), taxRate, configTaxRate)
  }

  /** The outcome of an `add` that may add several lines: the cart as it
      stands (earlier lines stay added when a later one fails) and the added
      lines or the error. */
  datatype Bulk = Bulk(cart: Cart, result: Result<seq<Item>>)

  /** The bulk branch of `add`: each attribute array of a list is added in
      turn, with the configured tax rate. */
  function AddMany(c: Cart, arrays: seq<AttrArray>, configTaxRate: real := DefaultTaxRate): (r: Bulk)
    ensures r.result.Success? ==> |r.result.value| == |arrays|
    ensures SameElsewhere(c, r.cart)
    ensures forall k | k in Content(c) :: k in Content(r.cart)
    ensures r.result.Success? ==>
      forall i | 0 <= i < |r.result.value| :: r.result.value[i].rowId in Content(r.cart)
    ensures |arrays| > 0 && AddArray(c, arrays[0], None, configTaxRate).Failure? ==>
      r == Bulk(c, Failure(AddArray(c, arrays[0], None, configTaxRate).error))
    ensures |arrays| > 0 && r.result.Success? ==>
      && AddArray(c, arrays[0], None, configTaxRate).Success?
      && r.result.value[0] == AddArray(c, arrays[0], None, configTaxRate).value.1
    decreases |arrays|
  {
    if |arrays| == 0 then Bulk(c, Success([]))
    else
      match AddArray(c, arrays[0], None, configTaxRate)
      case Failure(e) => Bulk(c, Failure(e))
      case Success(added) =>
        var rest := AddMany(added.0, arrays[1..], configTaxRate);
        if rest.result.Failure? then Bulk(rest.cart, Failure(rest.result.error))
        else Bulk(rest.cart, Success([added.1] + rest.result.value))
  }

  /** What `add` is handed as its first argument: a scalar id with the other
      arguments, one attribute array, or a list of attribute arrays. */
  datatype AddArg =
    | ScalarArgs(id: Id, name: string, qty: real, price: real, options: Options)
    | OneArray(entry: AttrArray)
    | ArrayList(arrays: seq<AttrArray>)

  /** `isMulti`: the argument is an array whose first value is an array. */
  predicate IsMulti(arg: AddArg): (r: bool)
    ensures arg.ScalarArgs? ==> !r
    ensures arg.ArrayList? ==> (r <==> |arg.arrays| > 0)
    ensures arg.OneArray? ==> (r <==> arg.entry.optionsFirst && arg.entry.attrs.options.Some?)
  {
    match arg
    case ScalarArgs(_, _, _, _, _) => false
    case OneArray(a) => LooksMulti(a)
    case ArrayList(arrays) => |arrays| > 0
  }

  /** `add`, dispatched as `isMulti` decides: a list with a first entry is a
      bulk add; anything else, the empty list included, is one line. */
  function AddArgument(c: Cart, arg: AddArg, taxRate: Option<real> := None,
                       configTaxRate: real := DefaultTaxRate): (r: Bulk)
    ensures SameElsewhere(c, r.cart)
    ensures r.result.Failure? && !IsMulti(arg) ==> r.cart == c
    ensures r.result.Success? && !IsMulti(arg) ==> |r.result.value| == 1
    ensures r.result.Success? && arg.ArrayList? ==> |r.result.value| == |arg.arrays|
    ensures arg.ArrayList? && |arg.arrays| == 0 ==> r == Bulk(c, Failure(MissingAttribute("id")))
    ensures arg.OneArray? && LooksMulti(arg.entry) ==> r.cart == c && r.result.Failure?
    ensures arg.ScalarArgs? ==>
      r == Single(c, Add(c, Scalar(arg.id, arg.name, arg.qty, arg.price, arg.options), taxRate, configTaxRate))
    ensures arg.OneArray? && !LooksMulti(arg.entry) ==>
      r == Single(c, Add(c, Array(arg.entry.attrs), taxRate, configTaxRate))
    ensures IsMulti(arg) && arg.ArrayList? ==> r == AddMany(c, arg.arrays, configTaxRate)
  {
    match arg
    case ScalarArgs(id, name, qty, price, options) =>
      Single(c, Add(c, Scalar(id, name, qty, price, options), taxRate, configTaxRate))
    case OneArray(a) =>
      if LooksMulti(a) then AddMany(c, [a], configTaxRate)
      else Single(c, AddArray(c, a, taxRate, configTaxRate))
    case ArrayList(arrays) =>
      if |arrays| == 0 then
        Single(c, AddArray(c, AttrArray(Attributes(None, None, None, None, None), false), taxRate, configTaxRate))
      else AddMany(c, arrays, configTaxRate)
  }

  /** The outcome of adding one line, as a bulk outcome. */
  function Single(c: Cart, r: Result<(Cart, Item)>): (b: Bulk)
    requires r.Success? ==> SameElsewhere(c, r.value.0)
    ensures SameElsewhere(c, b.cart)
    ensures b.result.Success? <==> r.Success?
    ensures r.Success? ==> b == Bulk(r.value.0, Success([r.value.1]))
    ensures r.Failure? ==> b == Bulk(c, Failure(r.error))
  {
    match r
    case Success(added) => Bulk(added.0, Success([added.1]))
    case Failure(e) => Bulk(c, Failure(e))
  }

  /** Where the argument's key order decides: an attribute array that lists
      its options first is refused, the same array with another key first is
      added as one line. */
  lemma OptionsFirstRefused(c: Cart, a: Attributes, taxRate: Option<real>, configTaxRate: real)
    requires a.options.Some?
    ensures AddArgument(c, OneArray(AttrArray(a, true)), taxRate, configTaxRate).result.Failure?
    ensures AddArgument(c, OneArray(AttrArray(a, false)), taxRate, configTaxRate).result.Success?
            <==> Add(c, Array(a), taxRate, configTaxRate).Success?
  {
  }

  lemma AddArgumentPreservesValid(c: Cart, arg: AddArg, taxRate: Option<real>, configTaxRate: real)
    requires Valid(c)
    ensures Valid(AddArgument(c, arg, taxRate, configTaxRate).cart)
  {
    match arg
    case ScalarArgs(id, name, qty, price, options) =>
      var src := Scalar(id, name, qty, price, options);
      if Add(c, src, taxRate, configTaxRate).Success? {
        AddPreservesValid(c, src, taxRate, configTaxRate);
      }
    case OneArray(a) =>
      if LooksMulti(a) {
        AddManyPreservesValid(c, [a], configTaxRate);
      } else if Add(c, Array(a.attrs), taxRate, configTaxRate).Success? {
        AddPreservesValid(c, Array(a.attrs), taxRate, configTaxRate);
      }
    case ArrayList(arrays) =>
      if |arrays| > 0 {
        AddManyPreservesValid(c, arrays, configTaxRate);
      }
  }

  /** Total quantity the attribute arrays ask for (absent counts as zero). */
  function RequestedQty(arrays: seq<AttrArray>): real
    decreases |arrays|
  {
    if |arrays| == 0 then 0.0 else arrays[0].attrs.qty.GetOr(0.0) + RequestedQty(arrays[1..])
  }

  /** A bulk add that succeeds raises the count by the total requested
      quantity. */
  lemma {:induction false} AddManyCount(c: Cart, arrays: seq<AttrArray>, configTaxRate: real)
    requires AddMany(c, arrays, configTaxRate).result.Success?
    ensures SumOf(Content(AddMany(c, arrays, configTaxRate).cart), Quantity)
            == SumOf(Content(c), Quantity) + RequestedQty(arrays)
    decreases |arrays|
  {
    if |arrays| > 0 {
      var added := AddArray(c, arrays[0], None, configTaxRate).value;
      AddCount(c, Array(arrays[0].attrs), None, configTaxRate);
      AddManyCount(added.0, arrays[1..], configTaxRate);
    }
  }

  /** A bulk add keeps every item under its own rowId, whether it succeeds or
      stops at a failing entry. */
  lemma {:induction false} AddManyPreservesValid(c: Cart, arrays: seq<AttrArray>, configTaxRate: real)
    requires Valid(c)
    ensures Valid(AddMany(c, arrays, configTaxRate).cart)
    decreases |arrays|
  {
    if |arrays| > 0 {
      var first := AddArray(c, arrays[0], None, configTaxRate);
      if first.Success? {
        AddPreservesValid(c, Array(arrays[0].attrs), None, configTaxRate);
        AddManyPreservesValid(first.value.0, arrays[1..], configTaxRate);
      }
    }
  }

  /** `get`: the stored line, or InvalidRowIDException. */
  function Get(c: Cart, rowId: RowId): (r: Result<Item>)
    ensures r.Success? <==> rowId in Content(c)
    ensures r.Success? ==> r.value == Content(c)[rowId]
    ensures r.Failure? ==> r.error == InvalidRowId(rowId)
  {
    var content := Content(c);
    if rowId in content then Success(content[rowId]) else Failure(InvalidRowId(rowId))
  }

  /** `remove`: fails on an absent rowId before any change; otherwise pulls
      the found line's own rowId. */
  function Remove(c: Cart, rowId: RowId): (r: Result<Cart>)
    ensures r.Success? <==> rowId in Content(c)
    ensures r.Failure? ==> r.error == InvalidRowId(rowId)
    ensures r.Success? ==> SameElsewhere(c, r.value)
    ensures r.Success? && WellKeyed(Content(c)) ==> Content(r.value) == Content(c) - {rowId}
  {
    var item :- Get(c, rowId);
    Success(Put(c, Content(c) - {item.rowId}))
  }

  /** Removing a line lowers the count by its quantity and leaves every other
      line as it was. */
  lemma RemoveCount(c: Cart, rowId: RowId)
    requires WellKeyed(Content(c)) && rowId in Content(c)
    ensures Remove(c, rowId).Success?
    ensures SumOf(Content(Remove(c, rowId).value), Quantity)
            == SumOf(Content(c), Quantity) - Content(c)[rowId].qty
    ensures forall k | k in Content(c) && k != rowId ::
              k in Content(Remove(c, rowId).value) && Content(Remove(c, rowId).value)[k] == Content(c)[k]
  {
    SumOfRemove(Content(c), Quantity, rowId);
  }

  lemma RemovePreservesValid(c: Cart, rowId: RowId)
    requires Valid(c) && Remove(c, rowId).Success?
    ensures Valid(Remove(c, rowId).value)
  {
    var content := Content(c);
    assert WellKeyed(content);
    PutValid(c, content - {content[rowId].rowId});
  }

  /** What `update` is given: a bare quantity, an attribute patch, or a
      Buyable to re-read id, name and price from. */
  datatype UpdateArg = NewQty(qty: real) | Patch(attrs: Attributes) | Resync(buyable: Buyable)

  /** The change `update` makes to the line before it is stored: only a
      patch can move it to another rowId, which it then recomputes. */
  function Apply(it: Item, arg: UpdateArg): (r: Item)
    ensures !arg.Patch? ==> r.rowId == it.rowId && r.options == it.options && r.taxRate == it.taxRate
    ensures arg.NewQty? ==> r.qty == arg.qty && r.(qty := it.qty) == it
    ensures arg.Resync? ==> r.qty == it.qty && r.id == arg.buyable.identifier && r.price == arg.buyable.price
    ensures arg.Patch? ==> r.rowId == GenerateRowId(r.id, r.options)
    ensures arg.Patch? ==> r == UpdateFromArray(it, arg.attrs)
    ensures arg.Resync? ==> r == UpdateFromBuyable(it, arg.buyable)
  {
    match arg
    case NewQty(q) => it.(qty := q)
    case Patch(a) => UpdateFromArray(it, a)
    case Resync(b) => UpdateFromBuyable(it, b)
  }

  /** The outcome of `update`: the cart as it stands and either the stored
      line, None when the line was removed, or the error. */
  datatype Updated = Updated(cart: Cart, result: Result<Option<Item>>)

  /** `update`. A bare quantity is assigned without validation. When the
      change gives the line a new rowId, the old row is pulled from the live
      content at once and the line merges into any row already at the new
      rowId (quantities summed through setQuantity, which refuses a zero sum).
      A resulting quantity <= 0 removes the line instead of storing it; when
      that happens to a line whose new rowId has no row, `remove` cannot find
      it and fails, after the old row was already pulled. */
  function Update(c: Cart, rowId: RowId, arg: UpdateArg): (r: Updated)
    ensures rowId !in Content(c) ==> r == Updated(c, Failure(InvalidRowId(rowId)))
    ensures SameElsewhere(c, r.cart)
    ensures r.result.Success? && r.result.value.Some? ==>
      var it := r.result.value.value;
      it.qty > 0.0 && it.rowId in Content(r.cart) && Content(r.cart)[it.rowId] == it
    ensures forall k | k in Content(r.cart) && k !in Content(c) ::
      r.result.Success? && r.result.value.Some? && k == r.result.value.value.rowId
    ensures rowId in Content(c) && Apply(Content(c)[rowId], arg).rowId == rowId ==>
      var u := Apply(Content(c)[rowId], arg);
      && (u.qty > 0.0 ==> r.result == Success(Some(u)) && Content(r.cart) == Content(c)[rowId := u])
      && (u.qty <= 0.0 ==> r.result == Success(None) && Content(r.cart) == Content(c) - {rowId})
  {
    var live := Content(c);
    if rowId !in live then Updated(c, Failure(InvalidRowId(rowId)))
    else
      var u := Apply(live[rowId], arg);
      if u.rowId == rowId then
        if u.qty <= 0.0 then Updated(Put(c, live - {rowId}), Success(None))
        else Updated(Put(c, live[rowId := u]), Success(Some(u)))
      else
        var pulled := live - {rowId};
        var target := u.rowId;
        if target in pulled then
          match SetQuantity(u, pulled[target].qty + u.qty)
          case Failure(e) => Updated(Put(c, pulled), Failure(e))
          case Success(merged) =>
            if merged.qty <= 0.0 then Updated(Put(c, pulled - {pulled[target].rowId}), Success(None))
            else Updated(Put(c, pulled[target := merged]), Success(Some(merged)))
        else if u.qty <= 0.0 then Updated(Put(c, pulled), Failure(InvalidRowId(target)))
        else Updated(Put(c, pulled[target := u]), Success(Some(u)))
  }

  /** A bare quantity <= 0 removes the row, so a later `get` fails. */
  lemma UpdateNonPositiveRemoves(c: Cart, rowId: RowId, q: real)
    requires WellKeyed(Content(c)) && rowId in Content(c) && q <= 0.0
    ensures Update(c, rowId, NewQty(q)).result == Success(None)
    ensures Content(Update(c, rowId, NewQty(q)).cart) == Content(c) - {rowId}
    ensures Get(Update(c, rowId, NewQty(q)).cart, rowId).Failure?
  {
  }

  /** A bare positive quantity replaces the row's quantity and nothing else. */
  lemma UpdatePositiveQty(c: Cart, rowId: RowId, q: real)
    requires WellKeyed(Content(c)) && rowId in Content(c) && q > 0.0
    ensures Update(c, rowId, NewQty(q)).result == Success(Some(Content(c)[rowId].(qty := q)))
    ensures Content(Update(c, rowId, NewQty(q)).cart) == Content(c)[rowId := Content(c)[rowId].(qty := q)]
  {
  }

  /** When the change moves the line to another rowId, the old row is gone
      whatever happens next. A line that lands on an existing row carries the
      sum of both quantities; a negative sum removes that row as well, and a
      zero sum fails after the old row was pulled. No other row changes. */
  lemma UpdateRekeys(c: Cart, rowId: RowId, arg: UpdateArg)
    requires WellKeyed(Content(c)) && rowId in Content(c)
    requires Apply(Content(c)[rowId], arg).rowId != rowId
    ensures rowId !in Content(Update(c, rowId, arg).cart)
    ensures
      var u := Apply(Content(c)[rowId], arg);
      var before := Content(c);
      var after := Content(Update(c, rowId, arg).cart);
      var result := Update(c, rowId, arg).result;
      && (u.rowId in before && before[u.rowId].qty + u.qty > 0.0 ==>
            var merged := u.(qty := before[u.rowId].qty + u.qty);
            after == (before - {rowId})[u.rowId := merged] && result == Success(Some(merged)))
      && (u.rowId in before && before[u.rowId].qty + u.qty < 0.0 ==>
            after == before - {rowId} - {u.rowId} && result == Success(None))
      && (u.rowId in before && before[u.rowId].qty + u.qty == 0.0 ==>
            after == before - {rowId} && result == Failure(InvalidQuantity))
      && (u.rowId !in before && u.qty > 0.0 ==>
            after == (before - {rowId})[u.rowId := u] && result == Success(Some(u)))
      && (u.rowId !in before && u.qty <= 0.0 ==>
            after == before - {rowId} && result == Failure(InvalidRowId(u.rowId)))
  {
  }

  lemma UpdatePreservesValid(c: Cart, rowId: RowId, arg: UpdateArg)
    requires Valid(c)
    ensures Valid(Update(c, rowId, arg).cart)
  {
    var live := Content(c);
    assert WellKeyed(live);
    if rowId in live {
      var u := Apply(live[rowId], arg);
      var pulled := live - {rowId};
      assert WellKeyed(pulled);
      if u.rowId == rowId {
        PutValid(c, live - {rowId});
        PutValid(c, live[rowId := u]);
      } else {
        var target := u.rowId;
        PutValid(c, pulled);
        PutValid(c, pulled[target := u]);
        if target in pulled {
          PutValid(c, pulled - {pulled[target].rowId});
          var s := SetQuantity(u, pulled[target].qty + u.qty);
          if s.Success? {
            assert s.value.rowId == target;
            PutValid(c, pulled[target := s.value]);
          }
        }
      }
    }
  }

  /** `destroy`: drops the active slot; `content()` is then empty. */
  function Destroy(c: Cart): (r: Cart)
    ensures Content(r) == map[]
    ensures r.session == c.session - {c.instance}
    ensures r.instance == c.instance && r.db == c.db
  {
    c.(session := c.session - {c.instance})
  }

  lemma DestroyEmpties(c: Cart)
    ensures Content(Destroy(c)) == map[]
    ensures SumOf(Content(Destroy(c)), Quantity) == 0.0
    ensures Valid(c) ==> Valid(Destroy(c))
  {
  }

  /** `setTax`: one line's tax rate changes, nothing else. */
  function SetTax(c: Cart, rowId: RowId, rate: real): (r: Result<Cart>)
    ensures r.Success? <==> rowId in Content(c)
    ensures r.Failure? ==> r.error == InvalidRowId(rowId)
    ensures r.Success? ==> SameElsewhere(c, r.value)
    ensures r.Success? && WellKeyed(Content(c)) ==>
      Content(r.value) == Content(c)[rowId := Content(c)[rowId].(taxRate := rate)]
  {
    var item :- Get(c, rowId);
    var taxed := SetTaxRate(item, rate);
    Success(Put(c, Content(c)[taxed.rowId := taxed]))
  }

  /** A tax-rate change leaves the count and the subtotal as they were. */
  lemma SetTaxKeepsCountAndSubtotal(c: Cart, rowId: RowId, rate: real)
    requires WellKeyed(Content(c)) && rowId in Content(c)
    ensures SumOf(Content(SetTax(c, rowId, rate).value), Quantity) == SumOf(Content(c), Quantity)
    ensures SumOf(Content(SetTax(c, rowId, rate).value), LineSubtotal) == SumOf(Content(c), LineSubtotal)
  {
    var it := Content(c)[rowId];
    SumOfPut(Content(c), Quantity, rowId, it.(taxRate := rate));
    SumOfPut(Content(c), LineSubtotal, rowId, it.(taxRate := rate));
  }

  lemma SetTaxPreservesValid(c: Cart, rowId: RowId, rate: real)
    requires Valid(c) && SetTax(c, rowId, rate).Success?
    ensures Valid(SetTax(c, rowId, rate).value)
  {
    var content := Content(c);
    assert WellKeyed(content);
    var taxed := SetTaxRate(content[rowId], rate);
    PutValid(c, content[taxed.rowId := taxed]);
  }

  /** `search` with a pure predicate over the active content. */
  function SearchCart(c: Cart, p: Item -> bool): (r: Rows)
    ensures forall k :: k in r <==> k in Content(c) && p(Content(c)[k])
    ensures forall k | k in r :: r[k] == Content(c)[k]
  {
    Search(Content(c), p)
  }

  // ---------------------------------------------------------------- sums

  /** `count`: the sum of the quantities. */
  method Count(c: Cart) returns (n: real)
    ensures n == SumOf(Content(c), Quantity)
  {
    n := Reduce(Content(c), Quantity);
  }

  /** `subtotal`: the sum of qty * price. */
  method CartSubtotal(c: Cart) returns (s: real)
    ensures s == SumOf(Content(c), LineSubtotal)
  {
    s := Reduce(Content(c), LineSubtotal);
  }

  /** `tax`: the sum of qty * tax. */
  method TaxSum(c: Cart) returns (t: real)
    ensures t == SumOf(Content(c), LineTax)
  {
    t := Reduce(Content(c), LineTax);
  }

  /** `total`: the sum of qty * rowTotal + qty * tax over the rounded
      per-line values; it is the subtotal plus the tax when every rowTotal is
      its price. */
  method CartTotal(c: Cart) returns (t: real)
    ensures t == SumOf(Content(c), LineRowTotal) + SumOf(Content(c), LineTax)
    ensures (forall k | k in Content(c) :: RowTotal(Content(c)[k]) == Content(c)[k].price) ==>
            t == SumOf(Content(c), LineSubtotal) + SumOf(Content(c), LineTax)
  {
    t := Reduce(Content(c), LineTotal);
    TotalSplits(Content(c));
    TotalIsSubtotalPlusTax(Content(c));
  }

  // ---------------------------------------------------------- persistence

  /** `store`: replaces the record for (identifier, current instance) with the
      active content. */
  function Store(c: Cart, identifier: string): (r: Cart)
    ensures r.session == c.session && r.instance == c.instance
    ensures r.db.Keys == c.db.Keys + {(identifier, CurrentInstance(c))}
    ensures r.db[(identifier, CurrentInstance(c))] == Content(c)
    ensures forall k | k in c.db && k != (identifier, CurrentInstance(c)) :: r.db[k] == c.db[k]
  {
    c.(db := c.db[(identifier, CurrentInstance(c)) := Content(c)])
  }

  lemma StorePreservesValid(c: Cart, identifier: string)
    requires Valid(c)
    ensures Valid(Store(c, identifier))
  {
    assert WellKeyed(Content(c));
  }

  /** `restore`: with no record for (identifier, current instance) nothing
      happens. Otherwise the instance is switched to "cart." + the current
      instance name, every stored line is put into that slot under its rowId
      (replacing a line already there, keeping the others), and the instance
      is switched to "cart." + the same name again. */
  function Restore(c: Cart, identifier: string): (r: Cart)
    ensures (identifier, CurrentInstance(c)) !in c.db ==> r == c
    ensures r.db == c.db
    ensures (identifier, CurrentInstance(c)) in c.db ==>
      var slot := KeyPrefix + CurrentInstance(c);
      var stored := c.db[(identifier, CurrentInstance(c))];
      var prior := if slot in c.session then c.session[slot] else map[];
      && r.instance == slot
      && r.session == c.session[slot := prior + stored]
  {
    var name := CurrentInstance(c);
    if (identifier, name) !in c.db then c
    else
      var stored := c.db[(identifier, name)];
      var target := SetInstance(c, Some(name));
      var merged := Put(target, Content(target) + stored);
      SetInstance(merged, Some(name))
  }

  /** On an instance whose name holds no "cart.", restore keeps the instance
      and merges: stored lines replace same-rowId lines, the rest stay. */
  lemma RestoreMerges(c: Cart, identifier: string, x: string)
    requires c.instance == KeyPrefix + x && !Contains(x, KeyPrefix)
    requires (identifier, x) in c.db
    ensures Restore(c, identifier).instance == c.instance
    ensures Content(Restore(c, identifier)) == Content(c) + c.db[(identifier, x)]
    ensures SameElsewhere(c, Restore(c, identifier))
  {
    InstanceRoundTrip(c, x);
    assert SetInstance(c, Some(x)) == c;
  }

  /** A name that itself holds "cart." is not the instance restore comes back
      to: from "cart." + x it returns to "cart." + x with every "cart."
      removed, a different instance (on "cart.cart.x", the instance
      "cart.x"). */
  lemma RestoreLeavesPrefixedInstance(c: Cart, identifier: string, x: string)
    requires c.instance == KeyPrefix + x && Contains(x, KeyPrefix)
    requires (identifier, CurrentInstance(c)) in c.db
    ensures Restore(c, identifier).instance == KeyPrefix + StripAll(x, KeyPrefix)
    ensures Restore(c, identifier).instance != c.instance
  {
    StripAllLeading(KeyPrefix, x);
    StripAllShortens(x, KeyPrefix);
  }

  lemma RestorePreservesValid(c: Cart, identifier: string)
    requires Valid(c)
    ensures Valid(Restore(c, identifier))
  {
    var name := CurrentInstance(c);
    if (identifier, name) in c.db {
      var target := SetInstance(c, Some(name));
      assert WellKeyed(Content(target));
      assert WellKeyed(c.db[(identifier, name)]);
      PutValid(target, Content(target) + c.db[(identifier, name)]);
    }
  }

  /** Storing, destroying the live content and restoring gives the same
      lines back. */
  lemma StoreDestroyRestore(c: Cart, identifier: string, x: string)
    requires c.instance == KeyPrefix + x && !Contains(x, KeyPrefix)
    ensures Content(Restore(Destroy(Store(c, identifier)), identifier)) == Content(c)
    ensures Restore(Destroy(Store(c, identifier)), identifier).instance == c.instance
  {
    InstanceRoundTrip(c, x);
    assert SetInstance(c, Some(x)) == c;
    var d := Destroy(Store(c, identifier));
    assert CurrentInstance(d) == x;
    RestoreMerges(d, identifier, x);
    assert Content(d) == map[];
    assert map[] + Content(c) == Content(c);
  }
}

=== FILE: cart_item.dfy ===
/** One cart line: a product id, name, unit price, quantity and option array,
    with a rowId derived from the id and the key-sorted options, a tax rate
    and a saved-for-later flag. Money and quantities are exact reals. */
module CartItem {
  import opened Strings
  import opened RowIdentity
  import opened Results
  import opened Money

  /** A product id is an integer or a string. */
  datatype Id = IntId(n: int) | StrId(s: string)

  /** PHP `empty()` on a string: the empty string and "0". */
  predicate IsEmptyText(s: string)
  {
    s == "" || s == "0"
  }

  /** PHP `empty()` on an id: 0, "" and "0". */
  predicate IsEmptyId(id: Id)
  {
    match id
    case IntId(n) => n == 0
    case StrId(s) => IsEmptyText(s)
  }

  /** The text the id contributes when it is concatenated into the digest. */
  function IdText(id: Id): string
  {
    match id
    case IntId(n) => IntText(n)
    case StrId(s) => s
  }

  /** `generateRowId`: the digest of the id's text and the options sorted by
      key. */
  function GenerateRowId(id: Id, options: Options): (r: RowId)
    ensures r.idText == IdText(id)
    ensures SortedByKey(r.sortedOptions) && multiset(r.sortedOptions) == multiset(options)
  {
    KSortSorted(options);
    RowIdOf(IdText(id), options)
  }

  /** Two (id, options) pairs share a rowId exactly when their ids have the
      same text and their option arrays hold the same pairs in any order. */
  lemma GenerateRowIdCanonical(a: Id, o1: Options, b: Id, o2: Options)
    ensures GenerateRowId(a, o1) == GenerateRowId(b, o2)
            <==> IdText(a) == IdText(b) && multiset(o1) == multiset(o2)
  {
    RowIdOfCanonical(IdText(a), o1, IdText(b), o2);
  }

  /** Reordering the options of one id never changes its rowId. */
  lemma RowIdIgnoresOptionOrder(id: Id, o1: Options, o2: Options)
    requires multiset(o1) == multiset(o2)
    ensures GenerateRowId(id, o1) == GenerateRowId(id, o2)
  {
    GenerateRowIdCanonical(id, o1, id, o2);
  }

  /** A cart line. `qty` is 0.0 until `SetQuantity` gives it a value (the
      PHP property is uninitialised until then). `rowTotalAssigned` records
      whether an update method has created the undeclared `rowTotal`
      property; from then on it reads as the unrounded price instead of
      going through the magic getter. */
  datatype Item = Item(
    rowId: RowId,
    id: Id,
    name: string,
    price: real,
    qty: real,
    options: Options,
    taxRate: real,
    isSaved: bool,
    rowTotalAssigned: bool)

  /** The rowId is the one the id and options produce. */
  predicate Consistent(it: Item)
  {
    it.rowId == GenerateRowId(it.id, it.options)
  }

  /** The constructor: rejects an empty id, then an empty name; the price is
      never rejected. */
  function New(id: Id, name: string, price: real, options: Options): (r: Result<Item>)
    ensures IsEmptyId(id) ==> r == Failure(InvalidIdentifier)
    ensures !IsEmptyId(id) && IsEmptyText(name) ==> r == Failure(InvalidName)
    ensures r.Success? <==> !IsEmptyId(id) && !IsEmptyText(name)
    ensures r.Success? ==>
      && r.value.id == id && r.value.name == name && r.value.price == price
      && r.value.options == options && Consistent(r.value)
      && r.value.taxRate == 0.0 && !r.value.isSaved && !r.value.rowTotalAssigned
  {
    if IsEmptyId(id) then Failure(InvalidIdentifier)
    else if IsEmptyText(name) then Failure(InvalidName)
    else Success(Item(GenerateRowId(id, options), id, name, price, 0.0, options, 0.0, false, false))
  }

  /** Accepts every quantity but zero, negatives included. */
  function SetQuantity(it: Item, qty: real): (r: Result<Item>)
    ensures r.Success? <==> qty != 0.0
    ensures r.Failure? ==> r.error == InvalidQuantity
    ensures r.Success? ==> r.value.qty == qty && r.value.(qty := it.qty) == it
  {
    if qty == 0.0 then Failure(InvalidQuantity) else Success(it.(qty := qty))
  }

  /** What a Buyable reports for the item's current options. */
  datatype Buyable = Buyable(identifier: Id, description: string, price: real)

  /** Re-reads id, name and price and assigns `rowTotal`; options and rowId
      stay as they were, even when the id changed. */
  function UpdateFromBuyable(it: Item, b: Buyable): (r: Item)
    ensures r.id == b.identifier && r.name == b.description && r.price == b.price
    ensures r.rowId == it.rowId && r.options == it.options
    ensures r.qty == it.qty && r.taxRate == it.taxRate && r.isSaved == it.isSaved
    ensures r.rowTotalAssigned
  {
    it.(id := b.identifier, name := b.description, price := b.price, rowTotalAssigned := true)
  }

  /** An attribute array: each key may be present or absent. */
  datatype Attributes = Attributes(
    id: Option<Id>,
    name: Option<string>,
    price: Option<real>,
    qty: Option<real>,
    options: Option<Options>)

  /** Partial update: every present key replaces its field, every absent key
      keeps the prior value, nothing is validated, `rowTotal` is assigned, and
      the rowId is derived afresh from the resulting id and options. */
  function UpdateFromArray(it: Item, a: Attributes): (r: Item)
    ensures r.id == (if a.id.Some? then a.id.value else it.id)
    ensures r.name == (if a.name.Some? then a.name.value else it.name)
    ensures r.price == (if a.price.Some? then a.price.value else it.price)
    ensures r.qty == (if a.qty.Some? then a.qty.value else it.qty)
    ensures r.options == (if a.options.Some? then a.options.value else it.options)
    ensures Consistent(r)
    ensures r.taxRate == it.taxRate && r.isSaved == it.isSaved && r.rowTotalAssigned
  {
    var id := a.id.GetOr(it.id);
    var options := a.options.GetOr(it.options);
    Item(GenerateRowId(id, options), id, a.name.GetOr(it.name), a.price.GetOr(it.price),
         a.qty.GetOr(it.qty), options, it.taxRate, it.isSaved, true)
  }

  /** A patch moves a consistent item to another row exactly when it changes
      the id text or the set of options. */
  lemma UpdateFromArrayMovesRow(it: Item, a: Attributes)
    requires Consistent(it)
    ensures UpdateFromArray(it, a).rowId != it.rowId
            <==> IdText(UpdateFromArray(it, a).id) != IdText(it.id)
                 || multiset(UpdateFromArray(it, a).options) != multiset(it.options)
  {
    var r := UpdateFromArray(it, a);
    GenerateRowIdCanonical(r.id, r.options, it.id, it.options);
  }

  function SetTaxRate(it: Item, rate: real): (r: Item)
    ensures r.taxRate == rate
    ensures r.(taxRate := it.taxRate) == it
  {
    it.(taxRate := rate)
  }

  function SetSaved(it: Item, saved: bool): (r: Item)
    ensures r.isSaved == saved
    ensures r.(isSaved := it.isSaved) == it
  {
    it.(isSaved := saved)
  }

  function FromAttributes(id: Id, name: string, price: real, options: Options := []): Result<Item>
  {
    New(id, name, price, options)
  }

  function FromBuyable(b: Buyable, options: Options := []): Result<Item>
  {
    New(b.identifier, b.description, b.price, options)
  }

  /** Builds an item from an attribute array; id, name and price must be
      present (the first one missing is reported), options default to none. */
  function FromArray(a: Attributes): (r: Result<Item>)
    ensures a.id.None? ==> r == Failure(MissingAttribute("id"))
    ensures a.id.Some? && a.name.None? ==> r == Failure(MissingAttribute("name"))
    ensures a.id.Some? && a.name.Some? && a.price.None? ==> r == Failure(MissingAttribute("price"))
  {
    if a.id.None? then Failure(MissingAttribute("id"))
    else if a.name.None? then Failure(MissingAttribute("name"))
    else if a.price.None? then Failure(MissingAttribute("price"))
    else New(a.id.value, a.name.value, a.price.value, a.options.GetOr([]))
  }

  /** The array and attribute constructors build what the constructor builds
      from the same id, name, price and options. */
  lemma AlternateConstructorsAgree(id: Id, name: string, price: real, qty: Option<real>, options: Option<Options>)
    ensures FromArray(Attributes(Some(id), Some(name), Some(price), qty, options))
            == New(id, name, price, options.GetOr([]))
    ensures FromAttributes(id, name, price, options.GetOr([])) == New(id, name, price, options.GetOr([]))
    ensures FromBuyable(Buyable(id, name, price), options.GetOr([])) == New(id, name, price, options.GetOr([]))
    ensures FromAttributes(id, name, price) == New(id, name, price, [])
    ensures FromBuyable(Buyable(id, name, price)) == New(id, name, price, [])
  {
  }

  // Derived money values. None is a declared property: the magic getter
  // answers each through `number_format`, so each is rounded, and the cart
  // computes with the rounded values.

  /** `rowTotal`: the price rounded to 2 places, or the unrounded price once
      an update method has assigned the property. */
  function RowTotal(it: Item): (r: real)
    ensures it.rowTotalAssigned ==> r == it.price
    ensures !it.rowTotalAssigned ==> RoundedFrom(r, it.price, TwoPlaces)
  {
    if it.rowTotalAssigned then it.price else RoundTo(it.price, TwoPlaces)
  }

  /** `subtotal`: qty times the unrounded price, rounded to 2 places. */
  function Subtotal(it: Item): (r: real)
    ensures RoundedFrom(r, it.qty * it.price, TwoPlaces)
  {
    RoundedProduct(it.qty, it.price, TwoPlaces)
  }

  /** `total`: qty times rowTotal, rounded to 2 places. */
  function Total(it: Item): (r: real)
    ensures RoundedFrom(r, it.qty * RowTotal(it), TwoPlaces)
  {
    RoundedProduct(it.qty, RowTotal(it), TwoPlaces)
  }

  /** `tax`: the tax on one unit, rounded to 4 places. */
  function Tax(it: Item): (r: real)
    ensures RoundedFrom(r, it.price * (it.taxRate / 100.0), FourPlaces)
  {
    RoundedProduct(it.price, it.taxRate / 100.0, FourPlaces)
  }

  /** `taxTotal`: the rounded unit tax times qty, rounded to 2 places. */
  function TaxTotal(it: Item): (r: real)
    ensures RoundedFrom(r, Tax(it) * it.qty, TwoPlaces)
  {
    RoundedProduct(Tax(it), it.qty, TwoPlaces)
  }

  /** rowTotal is the price exactly when the price is whole cents or the
      property was assigned. */
  lemma RowTotalIsPrice(it: Item)
    ensures RowTotal(it) == it.price <==> it.rowTotalAssigned || HasPlaces(it.price, TwoPlaces)
  {
    if HasPlaces(it.price, TwoPlaces) {
      RoundToExact(it.price, TwoPlaces);
    }
  }

  /** When rowTotal is the price, a line's total is its subtotal; a zero tax
      rate gives zero tax. */
  lemma DerivedValues(it: Item)
    ensures RowTotal(it) == it.price ==> Total(it) == Subtotal(it)
    ensures it.taxRate == 0.0 ==> Tax(it) == 0.0 && TaxTotal(it) == 0.0
  {
    if it.taxRate == 0.0 {
      assert it.price * (it.taxRate / 100.0) == 0.0;
      RoundToExact(0.0, FourPlaces);
      assert Tax(it) * it.qty == 0.0;
      RoundToExact(0.0, TwoPlaces);
    }
  }

  /** Rounding the unit price first makes a line's total differ from its
      subtotal: 2 units at 0.125 have subtotal 0.25 but total 2 * 0.13. */
  lemma TotalRoundsUnitPrice(it: Item)
    requires it.price == 0.125 && it.qty == 2.0 && !it.rowTotalAssigned
    ensures RowTotal(it) == 0.13
    ensures Subtotal(it) == 0.25 && Total(it) == 0.26
  {
    assert RoundHalfUp(12.5) == 13;
    assert RoundHalfUp(25.0) == 25;
    assert RoundHalfUp(26.0) == 26;
  }

  /** What each setter leaves alone among the derived values. Re-reading the
      same price from a Buyable keeps every money value but rowTotal, which
      changes exactly when the price has more than 2 decimals and had not
      been assigned before. */
  lemma DerivedValuesFrame(it: Item, rate: real, saved: bool, b: Buyable)
    ensures RowTotal(SetSaved(it, saved)) == RowTotal(it) && Total(SetSaved(it, saved)) == Total(it)
    ensures TaxTotal(SetSaved(it, saved)) == TaxTotal(it)
    ensures RowTotal(SetTaxRate(it, rate)) == RowTotal(it) && Total(SetTaxRate(it, rate)) == Total(it)
    ensures Subtotal(SetTaxRate(it, rate)) == Subtotal(it)
    ensures b.price == it.price ==>
      && Subtotal(UpdateFromBuyable(it, b)) == Subtotal(it)
      && TaxTotal(UpdateFromBuyable(it, b)) == TaxTotal(it)
      && (RowTotal(UpdateFromBuyable(it, b)) != RowTotal(it)
          <==> !it.rowTotalAssigned && !HasPlaces(it.price, TwoPlaces))
  {
    if b.price == it.price {
      var u := UpdateFromBuyable(it, b);
      assert u.price == it.price && u.qty == it.qty && u.taxRate == it.taxRate;
      RowTotalIsPrice(it);
      assert RowTotal(u) == it.price;
    }
  }
}

=== FILE: cart_rows.dfy ===
/** A cart instance's rows, the map rowId -> item, and the sums the cart
    reports over it: quantity, subtotal, tax and total. */
module CartRows {
  import opened RowIdentity
  import opened CartItem
  import opened Money

  type Rows = map<RowId, Item>

  /** Every item sits under its own rowId. */
  ghost predicate WellKeyed(c: Rows)
  {
    forall k | k in c :: c[k].rowId == k
  }

  /** What each line contributes to one of the cart's sums. */
  datatype Measure = Quantity | LineSubtotal | LineRowTotal | LineTax | LineTotal

  function Line(m: Measure, it: Item): real
  {
    match m
    case Quantity => it.qty
    case LineSubtotal => it.qty * it.price
    case LineRowTotal => it.qty * RowTotal(it)
    case LineTax => it.qty * Tax(it)
    case LineTotal => it.qty * RowTotal(it) + it.qty * Tax(it)
  }

  ghost function PickKey(c: Rows): (k: RowId)
    requires c != map[]
    ensures k in c
  {
    var k :| k in c; k
  }

  /** The sum of one measure over all lines; the order of the lines does not
      matter (see SumOfRemove). */
  ghost function SumOf(c: Rows, m: Measure): real
    decreases |c|
  {
    if c == map[] then 0.0
    else
      var k := PickKey(c);
      assert |c - {k}| < |c| by {
        assert (c - {k}).Keys == c.Keys - {k};
      }
      Line(m, c[k]) + SumOf(c - {k}, m)
  }

  /** Any line can be taken out of the sum first. */
  lemma {:induction false} SumOfRemove(c: Rows, m: Measure, k: RowId)
    requires k in c
    ensures SumOf(c, m) == Line(m, c[k]) + SumOf(c - {k}, m)
    decreases |c|
  {
    var j := PickKey(c);
    if j != k {
      assert (c - {j}).Keys == c.Keys - {j};
      SumOfRemove(c - {j}, m, k);
      assert (c - {k}).Keys == c.Keys - {k};
      SumOfRemove(c - {k}, m, j);
      assert c - {j} - {k} == c - {k} - {j};
    }
  }

  /** Putting a line under a key replaces whatever that key contributed. */
  lemma SumOfPut(c: Rows, m: Measure, k: RowId, it: Item)
    ensures SumOf(c[k := it], m)
            == SumOf(c, m) - (if k in c then Line(m, c[k]) else 0.0) + Line(m, it)
  {
    SumOfRemove(c[k := it], m, k);
    if k in c {
      SumOfRemove(c, m, k);
      assert c[k := it] - {k} == c - {k};
    } else {
      assert c[k := it] - {k} == c;
    }
  }

  /** Two measures that agree on every line agree in sum. */
  lemma {:induction false} SumOfCongruent(c: Rows, m1: Measure, m2: Measure)
    requires forall k | k in c :: Line(m1, c[k]) == Line(m2, c[k])
    ensures SumOf(c, m1) == SumOf(c, m2)
    decreases |c|
  {
    if c != map[] {
      var k := PickKey(c);
      assert (c - {k}).Keys == c.Keys - {k};
      SumOfRemove(c, m2, k);
      SumOfCongruent(c - {k}, m1, m2);
    }
  }

  /** The cart's total adds, line by line, quantity times the rounded
      rowTotal and quantity times the rounded unit tax. */
  lemma {:induction false} TotalSplits(c: Rows)
    ensures SumOf(c, LineTotal) == SumOf(c, LineRowTotal) + SumOf(c, LineTax)
    decreases |c|
  {
    if c != map[] {
      var k := PickKey(c);
      assert (c - {k}).Keys == c.Keys - {k};
      SumOfRemove(c, LineRowTotal, k);
      SumOfRemove(c, LineTax, k);
      TotalSplits(c - {k});
    }
  }

  /** The total is the subtotal plus the tax when every line's rowTotal is
      its price, that is when every price is whole cents or was assigned by
      an update. */
  lemma TotalIsSubtotalPlusTax(c: Rows)
    ensures (forall k | k in c :: RowTotal(c[k]) == c[k].price) ==>
            SumOf(c, LineTotal) == SumOf(c, LineSubtotal) + SumOf(c, LineTax)
  {
    TotalSplits(c);
    if forall k | k in c :: RowTotal(c[k]) == c[k].price {
      SumOfCongruent(c, LineRowTotal, LineSubtotal);
    }
  }

  /** Otherwise the two differ: one line of 2 units at 0.125 without tax has
      total 0.26 but subtotal plus tax 0.25. */
  lemma TotalDiffersFromSubtotalPlusTax(k: RowId, it: Item)
    requires it.price == 0.125 && it.qty == 2.0 && it.taxRate == 0.0 && !it.rowTotalAssigned
    ensures SumOf(map[k := it], LineTotal) == 0.26
    ensures SumOf(map[k := it], LineSubtotal) + SumOf(map[k := it], LineTax) == 0.25
  {
    var c := map[k := it];
    assert c - {k} == map[];
    SumOfRemove(c, LineTotal, k);
    SumOfRemove(c, LineSubtotal, k);
    SumOfRemove(c, LineTax, k);
    TotalRoundsUnitPrice(it);
    DerivedValues(it);
  }

  /** The collection `reduce`/`sum`: folds one measure over the lines. */
  method Reduce(c: Rows, m: Measure) returns (total: real)
    ensures total == SumOf(c, m)
  {
    total := 0.0;
    var rest := c;
    while rest != map[]
      invariant total + SumOf(rest, m) == SumOf(c, m)
      decreases |rest|
    {
      var k :| k in rest;
      SumOfRemove(rest, m, k);
      total := total + Line(m, rest[k]);
      assert (rest - {k}).Keys == rest.Keys - {k};
      rest := rest - {k};
    }
  }

  /** `filter` with a pure predicate: the lines it accepts, under their keys. */
  function Search(c: Rows, p: Item -> bool): (r: Rows)
    ensures forall k :: k in r <==> k in c && p(c[k])
    ensures forall k | k in r :: r[k] == c[k]
  {
    map k | k in c && p(c[k]) :: c[k]
  }
}

=== FILE: money.dfy ===
/** The rounding `number_format` applies before it renders a value: to a
    given number of decimal places, halves away from zero. Values are exact
    reals, so this is the rounding alone, without float error. */
module Money {
  /** The two precisions the cart line rounds to: 2 places for money, 4 for
      the per-unit tax. */
  datatype Places = TwoPlaces | FourPlaces

  /** `x` counted in units of the last kept decimal. */
  function Scaled(x: real, p: Places): real
  {
    match p
    case TwoPlaces => x * 100.0
    case FourPlaces => x * 10000.0
  }

  /** `y` is a whole number. */
  predicate Whole(y: real)
  {
    y.Floor as real == y
  }

  /** `x` has no digits beyond the kept decimals. */
  predicate HasPlaces(x: real, p: Places)
  {
    Whole(Scaled(x, p))
  }

  /** The nearest whole number, halves away from zero. */
  function RoundHalfUp(y: real): (n: int)
    ensures y - 0.5 <= n as real <= y + 0.5
    ensures y >= 0.0 ==> y - 0.5 < n as real
    ensures y < 0.0 ==> n as real < y + 0.5
    ensures y > -0.5 ==> n >= 0
  {
    if y >= 0.0 then (y + 0.5).Floor else -((-y + 0.5).Floor)
  }

  /** `r` is `x` rounded to the kept decimals, halves away from zero: `r` has
      only the kept decimals and lies within half a unit of the last kept
      decimal of `x`, on the far side of zero when `x` sits exactly halfway. */
  predicate RoundedFrom(r: real, x: real, p: Places)
  {
    && HasPlaces(r, p)
    && (Scaled(x, p) >= 0.0 ==> Scaled(x, p) - 0.5 < Scaled(r, p) <= Scaled(x, p) + 0.5)
    && (Scaled(x, p) < 0.0 ==> Scaled(x, p) - 0.5 <= Scaled(r, p) < Scaled(x, p) + 0.5)
  }

  /** PHP's `round($x, $places)`, which `number_format` applies: to the
      nearest multiple of the last kept decimal, halves away from zero. */
  function RoundTo(x: real, p: Places): (r: real)
    ensures HasPlaces(r, p)
    ensures Scaled(x, p) - 0.5 <= Scaled(r, p) <= Scaled(x, p) + 0.5
    ensures Scaled(x, p) >= 0.0 ==> Scaled(r, p) > Scaled(x, p) - 0.5
    ensures Scaled(x, p) < 0.0 ==> Scaled(r, p) < Scaled(x, p) + 0.5
    ensures RoundedFrom(r, x, p)
  {
    match p
    case TwoPlaces => RoundHalfUp(x * 100.0) as real / 100.0
    case FourPlaces => RoundHalfUp(x * 10000.0) as real / 10000.0
  }

  /** Only one value is rounded from `x`, so `RoundedFrom` pins `RoundTo`
      down completely. */
  lemma RoundToUnique(x: real, r: real, p: Places)
    requires RoundedFrom(r, x, p)
    ensures r == RoundTo(x, p)
  {
    var a := Scaled(r, p);
    var b := Scaled(RoundTo(x, p), p);
    assert a.Floor as real == a && b.Floor as real == b;
    assert -1.0 < a - b < 1.0;
    assert a.Floor == b.Floor;
    ScaledInjective(r, RoundTo(x, p), p);
  }

  lemma ScaledInjective(a: real, b: real, p: Places)
    requires Scaled(a, p) == Scaled(b, p)
    ensures a == b
  {
  }

  /** A value that already has the kept decimals is left as it is. */
  lemma RoundToExact(x: real, p: Places)
    requires HasPlaces(x, p)
    ensures RoundTo(x, p) == x
  {
    match p
    case TwoPlaces =>
      var y := x * 100.0;
      assert (y + 0.5).Floor == y.Floor;
      assert (-y + 0.5).Floor == -y.Floor;
    case FourPlaces =>
      var y := x * 10000.0;
      assert (y + 0.5).Floor == y.Floor;
      assert (-y + 0.5).Floor == -y.Floor;
  }

  /** Rounding twice is rounding once. */
  lemma RoundToIdempotent(x: real, p: Places)
    ensures RoundTo(RoundTo(x, p), p) == RoundTo(x, p)
  {
    RoundToExact(RoundTo(x, p), p);
  }

  /** A value exactly halfway between two cents goes to the one farther from
      zero, on either side of zero. */
  lemma HalvesAwayFromZero()
    ensures RoundTo(0.125, TwoPlaces) == 0.13
    ensures RoundTo(-0.125, TwoPlaces) == -0.13
    ensures RoundTo(0.00005, FourPlaces) == 0.0001
  {
    RoundToUnique(0.125, 0.13, TwoPlaces);
    RoundToUnique(-0.125, -0.13, TwoPlaces);
    RoundToUnique(0.00005, 0.0001, FourPlaces);
  }

  /** Halves go away from zero, so rounding commutes with negation. */
  lemma RoundToOdd(x: real, p: Places)
    ensures RoundTo(-x, p) == -RoundTo(x, p)
  {
    assert RoundHalfUp(-Scaled(x, p)) == -RoundHalfUp(Scaled(x, p));
  }

  /** `number_format` of a product, as the item's getters compute it. */
  function RoundedProduct(a: real, b: real, p: Places): real
  {
    RoundTo(a * b, p)
  }
}

=== FILE: results.dfy ===
/** Optional values, the exceptions the cart throws, and a result type that
    carries either a value or one of those exceptions. */
module Results {
  import opened RowIdentity

  datatype Option<+T> = None | Some(value: T) {
    function GetOr(default: T): T
    {
      if Some? then value else default
    }
  }

  /** The exceptions the cart raises. */
  datatype CartError =
    | InvalidIdentifier            // InvalidArgumentException: empty id
    | InvalidName                  // InvalidArgumentException: empty name
    | InvalidQuantity              // InvalidArgumentException: zero quantity
    | MissingAttribute(key: string) // an attribute array lacks a required key
    | InvalidRowId(rowId: RowId)   // InvalidRowIDException
    | TypeMismatch                 // PHP TypeError on a declared parameter type
    | CallOnNull                   // PHP Error: method called on null

  datatype Result<+T> = Success(value: T) | Failure(error: CartError) {
    predicate IsFailure()
    {
      Failure?
    }

    function PropagateFailure<U>(): Result<U>
      requires Failure?
    {
      Failure(error)
    }

    function Extract(): T
      requires Success?
    {
      value
    }
  }
}

=== FILE: row_identity.dfy ===
/** Row identity: an item's rowId is a digest of its id and its option array
    sorted by key (`ksort`), so the order in which options were given never
    changes which cart row an item lands in. */
module RowIdentity {
  import opened Strings

  /** One selected option: its key and its value. */
  type OptPair = (string, string)

  predicate UniqueKeys(s: seq<OptPair>)
  {
    forall i, j :: 0 <= i < j < |s| ==> s[i].0 != s[j].0
  }

  /** An option array in insertion order; like every PHP array it holds each
      key at most once. */
  type Options = s: seq<OptPair> | UniqueKeys(s) witness []

  predicate SortedByKey(s: seq<OptPair>)
  {
    forall i, j :: 0 <= i < j < |s| ==> LexLe(s[i].0, s[j].0)
  }

  /** Within the pairs of `m`, a key determines its pair. */
  ghost predicate KeyDetermines(m: multiset<OptPair>)
  {
    forall x, y | x in m && y in m && x.0 == y.0 :: x == y
  }

  function Insert(p: OptPair, s: seq<OptPair>): (r: seq<OptPair>)
    ensures multiset(r) == multiset(s) + multiset{p}
    decreases |s|
  {
    if |s| == 0 then [p]
    else if LexLe(p.0, s[0].0) then [p] + s
    else
      assert s == [s[0]] + s[1..];
      [s[0]] + Insert(p, s[1..])
  }

  /** `ksort`: the option array reordered by key. */
  function KSort(s: seq<OptPair>): (r: seq<OptPair>)
    ensures multiset(r) == multiset(s)
    decreases |s|
  {
    if |s| == 0 then []
    else
      assert s == [s[0]] + s[1..];
      Insert(s[0], KSort(s[1..]))
  }

  lemma {:induction false} InsertSorted(p: OptPair, s: seq<OptPair>)
    requires SortedByKey(s)
    ensures SortedByKey(Insert(p, s))
    decreases |s|
  {
    if |s| > 0 && !LexLe(p.0, s[0].0) {
      LexLeTotal(p.0, s[0].0);
      var tail := Insert(p, s[1..]);
      InsertSorted(p, s[1..]);
      forall j | 0 <= j < |tail|
        ensures LexLe(s[0].0, tail[j].0)
      {
        assert tail[j] in multiset(tail);
        if tail[j] != p {
          assert tail[j] in multiset(s[1..]);
          var k :| 0 <= k < |s[1..]| && s[1..][k] == tail[j];
          assert s[k + 1] == tail[j];
        }
      }
      var r := [s[0]] + tail;
      forall i, j | 0 <= i < j < |r|
        ensures LexLe(r[i].0, r[j].0)
      {
        if i > 0 {
          assert r[i] == tail[i - 1] && r[j] == tail[j - 1];
        } else {
          assert r[j] == tail[j - 1];
        }
      }
    } else if |s| > 0 {
      var r := [p] + s;
      forall i, j | 0 <= i < j < |r|
        ensures LexLe(r[i].0, r[j].0)
      {
        if i == 0 && j > 1 {
          LexLeTransitive(p.0, s[0].0, s[j - 1].0);
        }
      }
    }
  }

  lemma {:induction false} KSortSorted(s: seq<OptPair>)
    ensures SortedByKey(KSort(s))
    decreases |s|
  {
    if |s| > 0 {
      KSortSorted(s[1..]);
      InsertSorted(s[0], KSort(s[1..]));
    }
  }

  /** The head of a key-sorted sequence has the least key of all its pairs. */
  lemma SortedHeadLeast(a: seq<OptPair>, x: OptPair)
    requires SortedByKey(a)
    requires x in multiset(a)
    ensures LexLe(a[0].0, x.0)
  {
    var i :| 0 <= i < |a| && a[i] == x;
    if i == 0 {
      LexLeReflexive(x.0);
    }
  }

  lemma SortedTail(a: seq<OptPair>)
    requires |a| > 0 && SortedByKey(a)
    ensures SortedByKey(a[1..])
  {
  }

  lemma KeyDeterminesSub(m: multiset<OptPair>, n: multiset<OptPair>)
    requires m <= n && KeyDetermines(n)
    ensures KeyDetermines(m)
  {
  }

  lemma TailMultiset(a: seq<OptPair>)
    requires |a| > 0
    ensures multiset(a[1..]) == multiset(a) - multiset{a[0]}
  {
    assert a == [a[0]] + a[1..];
  }

  /** Two key-sorted arrangements of the same pairs, in which a key determines
      its pair, start with the same pair. */
  lemma SortedHeadsAgree(a: seq<OptPair>, b: seq<OptPair>)
    requires |a| > 0 && |b| > 0
    requires SortedByKey(a) && SortedByKey(b)
    requires multiset(a) == multiset(b)
    requires KeyDetermines(multiset(a))
    ensures a[0] == b[0]
  {
    assert b[0] in multiset(b) && a[0] in multiset(a);
    SortedHeadLeast(a, b[0]);
    SortedHeadLeast(b, a[0]);
    LexLeAntisymmetric(a[0].0, b[0].0);
  }

  /** Dropping an equal head keeps both arrangements sorted, of the same
      pairs, and with keys that determine their pairs. */
  lemma TailsArrange(a: seq<OptPair>, b: seq<OptPair>)
    requires |a| > 0 && |b| > 0 && a[0] == b[0]
    requires SortedByKey(a) && SortedByKey(b)
    requires multiset(a) == multiset(b)
    requires KeyDetermines(multiset(a))
    ensures SortedByKey(a[1..]) && SortedByKey(b[1..])
    ensures multiset(a[1..]) == multiset(b[1..])
    ensures KeyDetermines(multiset(a[1..]))
  {
    TailMultiset(a);
    TailMultiset(b);
    SortedTail(a);
    SortedTail(b);
    KeyDeterminesSub(multiset(a[1..]), multiset(a));
  }

  lemma ConsEqual(a: seq<OptPair>, b: seq<OptPair>)
    requires |a| > 0 && |b| > 0 && a[0] == b[0] && a[1..] == b[1..]
    ensures a == b
  {
    assert a == [a[0]] + a[1..];
    assert b == [b[0]] + b[1..];
  }

  /** Two key-sorted arrangements of the same pairs, in which a key determines
      its pair, are the same sequence. */
  lemma {:induction false} SortedArrangementUnique(a: seq<OptPair>, b: seq<OptPair>)
    requires SortedByKey(a) && SortedByKey(b)
    requires multiset(a) == multiset(b)
    requires KeyDetermines(multiset(a))
    ensures a == b
    decreases |a|
  {
    assert |a| == |multiset(a)| == |multiset(b)| == |b|;
    if |a| > 0 {
      SortedHeadsAgree(a, b);
      TailsArrange(a, b);
      SortedArrangementUnique(a[1..], b[1..]);
      ConsEqual(a, b);
    }
  }

  lemma OptionsKeyDetermines(o: Options)
    ensures KeyDetermines(multiset(o))
  {
    forall x, y | x in multiset(o) && y in multiset(o) && x.0 == y.0
      ensures x == y
    {
      var i :| 0 <= i < |o| && o[i] == x;
      var j :| 0 <= j < |o| && o[j] == y;
    }
  }

  /** The digest `md5(id . serialize(ksort(options)))`, abstracted as its own
      argument: two rowIds are equal exactly when the id text and the sorted
      options are. */
  datatype RowId = RowKey(idText: string, sortedOptions: seq<OptPair>)

  function RowIdOf(idText: string, options: Options): RowId
  {
    RowKey(idText, KSort(options))
  }

  /** The rowId ignores option order: it is the same for two option arrays
      exactly when one is a reordering of the other (and the id texts agree). */
  lemma RowIdOfCanonical(a: string, o1: Options, b: string, o2: Options)
    ensures RowIdOf(a, o1) == RowIdOf(b, o2) <==> a == b && multiset(o1) == multiset(o2)
  {
    if a == b && multiset(o1) == multiset(o2) {
      KSortSorted(o1);
      KSortSorted(o2);
      OptionsKeyDetermines(o1);
      SortedArrangementUnique(KSort(o1), KSort(o2));
    }
  }
}

=== FILE: strings.dfy ===
/** String helpers the cart needs: the key order used to sort option arrays,
    PHP's `str_replace` with an empty replacement, and the decimal text PHP
    produces when an integer is concatenated into a string. */
module Strings {

  /** Lexicographic order on strings, character by character. */
  predicate LexLe(a: string, b: string)
    decreases |a|
  {
    |a| == 0 || (|b| > 0 && (a[0] < b[0] || (a[0] == b[0] && LexLe(a[1..], b[1..]))))
  }

  lemma {:induction false} LexLeReflexive(a: string)
    ensures LexLe(a, a)
    decreases |a|
  {
    if |a| > 0 {
      LexLeReflexive(a[1..]);
    }
  }

  lemma {:induction false} LexLeAntisymmetric(a: string, b: string)
    requires LexLe(a, b) && LexLe(b, a)
    ensures a == b
    decreases |a|
  {
    if |a| > 0 {
      assert a[0] == b[0];
      LexLeAntisymmetric(a[1..], b[1..]);
      assert a == [a[0]] + a[1..];
      assert b == [b[0]] + b[1..];
    }
  }

  lemma {:induction false} LexLeTransitive(a: string, b: string, c: string)
    requires LexLe(a, b) && LexLe(b, c)
    ensures LexLe(a, c)
    decreases |a|
  {
    if |a| > 0 && a[0] == b[0] && b[0] == c[0] {
      LexLeTransitive(a[1..], b[1..], c[1..]);
    }
  }

  lemma {:induction false} LexLeTotal(a: string, b: string)
    ensures LexLe(a, b) || LexLe(b, a)
    decreases |a|
  {
    if |a| > 0 && |b| > 0 && a[0] == b[0] {
      LexLeTotal(a[1..], b[1..]);
    }
  }

  /** `pat` occurs in `s` starting at position `i`. */
  predicate OccursAt(s: string, pat: string, i: int)
  {
    0 <= i && i + |pat| <= |s| && s[i..i + |pat|] == pat
  }

  predicate Contains(s: string, pat: string)
  {
    exists i | 0 <= i <= |s| :: OccursAt(s, pat, i)
  }

  /** `str_replace(pat, '', s)`: scans left to right and drops every
      non-overlapping occurrence of `pat`; the text after a dropped
      occurrence is scanned again, the dropped text is not. */
  function StripAll(s: string, pat: string): (r: string)
    requires |pat| > 0
    ensures |r| <= |s|
    decreases |s|
  {
    if |s| < |pat| then s
    else if s[..|pat|] == pat then StripAll(s[|pat|..], pat)
    else [s[0]] + StripAll(s[1..], pat)
  }

  /** Stripping only ever shortens a string that holds the pattern, and leaves
      a string without it untouched. */
  lemma {:induction false} StripAllShortens(s: string, pat: string)
    requires |pat| > 0
    ensures Contains(s, pat) ==> |StripAll(s, pat)| < |s|
    ensures !Contains(s, pat) ==> StripAll(s, pat) == s
    decreases |s|
  {
    if |s| < |pat| {
      assert !Contains(s, pat);
    } else if s[..|pat|] == pat {
      assert OccursAt(s, pat, 0);
    } else {
      var t := s[1..];
      StripAllShortens(t, pat);
      if Contains(s, pat) {
        var i :| 0 <= i <= |s| && OccursAt(s, pat, i);
        assert 0 < i && i + |pat| <= |s| && s[i..i + |pat|] == pat;
        assert t[i - 1..i - 1 + |pat|] == s[i..i + |pat|];
        assert OccursAt(t, pat, i - 1);
      } else {
        if Contains(t, pat) {
          var j :| 0 <= j <= |t| && OccursAt(t, pat, j);
          assert s[j + 1..j + 1 + |pat|] == t[j..j + |pat|];
          assert OccursAt(s, pat, j + 1);
          assert false;
        }
        assert s == [s[0]] + t;
      }
    }
  }

  /** A leading occurrence is dropped and the scan restarts right after it. */
  lemma StripAllLeading(pat: string, x: string)
    requires |pat| > 0
    ensures StripAll(pat + x, pat) == StripAll(x, pat)
  {
    assert (pat + x)[..|pat|] == pat;
    assert (pat + x)[|pat|..] == x;
  }

  /** Prefixing `pat` and stripping every `pat` gives back `x` exactly when `x`
      itself holds no `pat`. */
  lemma PrefixThenStrip(pat: string, x: string)
    requires |pat| > 0
    ensures StripAll(pat + x, pat) == x <==> !Contains(x, pat)
  {
    StripAllLeading(pat, x);
    StripAllShortens(x, pat);
  }

  function DigitChar(d: nat): char
    requires d < 10
  {
    "0123456789"[d]
  }

  /** Decimal digits of a natural number, most significant first. */
  function NatText(n: nat): (r: string)
    ensures |r| > 0
    decreases n
  {
    if n < 10 then [DigitChar(n)] else NatText(n / 10) + [DigitChar(n % 10)]
  }

  /** PHP's string form of an integer. */
  function IntText(i: int): string
  {
    if i < 0 then "-" + NatText(-i) else NatText(i)
  }
}
